=== FILE: README.md ===
# Grid-world simulation substrate, modelled in Dafny

This project models the core of a small turn-based grid-world engine:

- the 2D `WorldPosition` value;
- the three-way `Location` union (on the grid, inside an item, held by an agent);
- the `WorldGrid`: a dense row-major vector of cell-type ids with a registry of cell types, resizing, loading from text rows, printing, and the `width height cells...` payload;
- the `Entity`, `ItemBase` and `AgentBase` records;
- the `WorldBase` turn engine: adding agents, one round of `RunAgents`, the `Run` loop, the perception queries;
- the one concrete world rule, `MazeWorld`.

Everything is modelled with immutable datatypes and pure functions. Operations that update an object in place return the updated value.

Files and modules:

| file | module | models |
|---|---|---|
| `wrappers.dfy` | `Wrappers` | `Option`, used where the code can stop at a failed assertion |
| `positions.dfy` | `Positions` | `WorldPosition` |
| `locations.dfy` | `Locations` | `ItemID`, `AgentID`, `Location` |
| `grids.dfy` | `Grids` | `CellType`, and `WorldGrid` construction, indexing, cell-type registry and `Resize` |
| `gridtext.dfy` | `GridText` | `BuildSymbolMap`, `Load`, `Print`, `Serialize`, `Deserialize` |
| `entities.dfy` | `Entities` | `Entity`, `ItemBase`, `AgentBase` (and the interface flag of `InterfaceBase`) |
| `worlds.dfy` | `Worlds` | `WorldBase` |
| `mazeworlds.dfy` | `MazeWorlds` | `MazeWorld` |

Modelling choices:

- **Coordinates.** They are exact `real`s. `CellX`/`CellY` are `Floor` on non-negative values.
- **Grid invariant.** `Grid` is a subset type of the `WorldGrid` datatype. It requires `|cells| == width * height` and that type 0 is the reserved `Unknown` type. Every constructor and operation of the source keeps both facts.
- **Dynamic type.** An `Entity` carries a `kind`: plain, item, or agent. The agent kind holds the action map, the last result, the symbol and the interface flag. This kind stands for the C++ dynamic type behind `IsItem`/`IsAgent`/`IsInterface`. `Item` and `Agent` are the entities of the matching kind.
- **Virtual hooks.** The engine takes these as function parameters:
  - the agent constructor (`construct`);
  - `ConfigAgent` (`config`);
  - `Initialize` (`initialize`);
  - `SelectAction` (`select`);
  - `DoAction` (`doAction`);
  - `UpdateWorld` (`update`).

  A hook returns `None` where an assertion inside it would fire, for example `AddAction` on a name already registered, or `AsWorldPosition` on an agent that is not on the grid. The engine then stops with `None`, which stands for the process aborting.
- **`SelectAction`.** It is a pure function of the current world and the acting agent's index. Through the world it sees the main grid, the agent itself, and what the world's queries expose (the other agents and the items). A single `select` function can dispatch on the agent's id or name to give each agent its own policy.
- **`ConfigAgent`.** It sees and changes only the new agent.
- **Ids.** In the source, ids are `const`. The model requires, as preconditions, that the hooks keep every agent's id and that `DoAction` neither adds nor removes agents. The source's range-for over `agent_set` would not survive either change.
- **Run loop.** `Run` is bounded by a `fuel` count of rounds. The `while (!run_over)` loop is the generic `Loop` over a body; `RunLoop` gives it the body "one `RunAgents`, then one `UpdateWorld`".
- **Serialize payload.** It is the token sequence `[width, height, cells...]`.

Two conventions of the source are not enforced by its code, and the model keeps the difference:

- A cell id is meant to be an index into the cell-type registry (the comment at `source/core/WorldGrid.hpp:42-45`). The code stores ids that need not be registered: the constructor stores the default type, `Resize` stores its default, `Deserialize` stores any token, and the writable `operator[]` stores any value. So "every stored id is registered" is not part of `Grid`. It is the separate predicate `Typed`. `Load` establishes it and `Print` requires it, because `Print` indexes the registry without a check.
- The integral `operator[]` overloads assert `IsValid` (`source/core/WorldGrid.hpp:112-121`). The position overloads at line 123-124 do not (see Findings).

## Model

| member | source | states |
|---|---|---|
| `Positions.Position.CellX` | source/core/WorldPosition.hpp:38-41 | requires x ≥ 0; the result c is the truncation of x: c ≤ x < c + 1 |
| `Positions.Position.CellY` | source/core/WorldPosition.hpp:42-45 | requires y ≥ 0; the result c is the truncation of y: c ≤ y < c + 1 |
| `Positions.FromInts` | source/core/WorldPosition.hpp:27-29 | the integral constructor stores the converted values; a non-negative integral coordinate truncates back to itself; the result is the default (0,0) exactly for (0,0) |
| `Positions.Compare` | source/core/WorldPosition.hpp:48 | the defaulted three-way comparison: Equal exactly for identical positions, Less/Greater exactly by lexicographic order on (x, y) |
| `Positions.CompareIsTotalOrder` | source/core/WorldPosition.hpp:48 | comparison is antisymmetric (swapping the arguments flips the result) and transitive |
| `Positions.NeighboursAreUnitSteps` | source/core/WorldPosition.hpp:57-60 | Up/Down change only y by −1/+1, Left/Right only x by −1/+1, opposite steps cancel, and no step is the identity |
| `Positions.Position.GetOffset` | source/core/WorldPosition.hpp:53-55 | the result is displaced from the position by exactly (dx, dy) |
| `Positions.Position.Up` | source/core/WorldPosition.hpp:57 | one row up: y decreases by one, x is unchanged (rows grow downward) |
| `Positions.Position.Down` | source/core/WorldPosition.hpp:58 | one row down: y increases by one, x is unchanged |
| `Positions.Position.Left` | source/core/WorldPosition.hpp:59 | one column left: x decreases by one, y is unchanged |
| `Positions.Position.Right` | source/core/WorldPosition.hpp:60 | one column right: x increases by one, y is unchanged |
| `Positions.OffsetsCompose` | source/core/WorldPosition.hpp:53-55 | the zero offset is the identity and two offsets compose to their sum |
| `Locations.Location.AsWorldPosition` | source/core/Location.hpp:43-46 | requires the position variant; returns the position that the location wraps |
| `Locations.Location.AsAgentId` | source/core/Location.hpp:47-50 | requires the agent variant; returns the agent number that the location wraps |
| `Locations.Location.AsItemId` | source/core/Location.hpp:51-54 | requires the item variant; returns the item number that the location wraps |
| `Locations.ExactlyOneKind` | source/core/Location.hpp:39-41 | exactly one of IsPosition, IsItemID, IsAgentID holds for every location |
| `Locations.ConstructThenRead` | source/core/Location.hpp:31-35 | building from a position, an ItemID{n} or an AgentID{n} and reading back with the matching accessor returns that position or n; the default location is the position (0,0) |
| `Grids.IndexInRange` | source/core/WorldGrid.hpp:50-52 | a cell inside the width-by-height rectangle has an index below width·height |
| `Grids.IndexInjective` | source/core/WorldGrid.hpp:50-52 | two cells with columns below the width share an index only if they are the same cell |
| `Grids.IsValidCell` | source/core/WorldGrid.hpp:102-104 | integral coordinates pass IsValid exactly when x < width and y < height |
| `Grids.ToIndex` | source/core/WorldGrid.hpp:50-52 | for a column inside the width, the index decodes back to its coordinates: index % width is x and index / width is y; for coordinates that pass IsValid it lies inside the cell vector |
| `Grids.IndexDecodes` | source/core/WorldGrid.hpp:50-52 | row-major flattening is undone by % and / for every column below the width |
| `Grids.NewGrid` | source/core/WorldGrid.hpp:82-88 | the constructor gives the requested size, every cell equals the default type, and the registry holds only type 0, named "Unknown" |
| `Grids.EmptyGrid` | source/core/WorldGrid.hpp:89 | the default grid is 0 by 0, has no cells, and holds only the Unknown type |
| `Grids.Unflatten` | source/core/WorldGrid.hpp:50-52 | every index below width·height is the row-major index of exactly one cell, column i % width of row i / width |
| `Grids.Get` | source/core/WorldGrid.hpp:112-115 | requires IsValid (the assertion); the cell (x, y) is entry x + y·width of the row-major cell vector, which lies inside it |
| `Grids.Set` | source/core/WorldGrid.hpp:118-121 | writing a valid cell makes it read back the new value, leaves every other cell, the size and the registry unchanged |
| `Grids.ReadAt` | source/core/WorldGrid.hpp:123 | the position read as written: for non-negative coordinates whose index i lies in the cell vector, it returns the cell at column i % width of row i / width; this is the cell at the position's own coordinates when the position passes IsValid |
| `Grids.ReadAtWrapsIntoNextRow` | source/core/WorldGrid.hpp:123 | the unguarded position read at (width, 0) is off the grid, yet it returns cell (0, 1) |
| `Grids.CellAt` | source/core/WorldGrid.hpp:123 | for a position that passes IsValid, the position read returns the cell at its truncated coordinates |
| `Grids.AddCellType` | source/core/WorldGrid.hpp:137-140 | appends exactly one type, returns the old registry length as its id, keeps earlier types, size and cells |
| `Grids.GetCellTypeID` | source/core/WorldGrid.hpp:145-150 | returns the smallest id ≥ 1 whose name matches; returns 0 exactly when no id ≥ 1 matches |
| `Grids.GetCellTypeName` | source/core/WorldGrid.hpp:152-155 | a registered id yields its own type's name; an id past the registry yields the name of the Unknown type |
| `Grids.GetCellTypeSymbol` | source/core/WorldGrid.hpp:157-160 | a registered id yields its own type's symbol; an id past the registry yields the symbol of the Unknown type |
| `Grids.CellTypeLookup` | source/core/WorldGrid.hpp:152-160 | a registered id yields its own name and symbol; any id past the registry yields "Unknown" and '\0', the name and symbol of type 0 |
| `Grids.AddedTypeLookup` | source/core/WorldGrid.hpp:137-140 | after AddCellType, the returned id yields the new name and symbol, and every earlier id yields what it did before |
| `Grids.Resize` | source/core/WorldGrid.hpp:165-182 | the new size is w by h, the registry is kept, cells inside both old and new rectangles keep their values and every other cell holds the default |
| `GridText.BuildSymbolMap` | source/core/WorldGrid.hpp:208-214 | the keys are exactly the registered symbols, and each maps to the highest id using it |
| `GridText.AppendSymbol` | source/core/WorldGrid.hpp:208-214 | registering one more type adds its symbol under its own id; any other symbol keeps the id last registered for it |
| `GridText.FlattenLength` | source/core/WorldGrid.hpp:220-230 | filling cells row by row from equal-length rows yields width·rows cells |
| `GridText.FlattenIndex` | source/core/WorldGrid.hpp:224-230 | filling cells row by row puts column x of row y at index x + y·width |
| `GridText.FlattenAt` | source/core/WorldGrid.hpp:224-230 | the single-cell form of FlattenIndex: column x of row y lands at index x + y·width |
| `GridText.Load` | source/core/WorldGrid.hpp:217-231 | height becomes the row count; width becomes the first row's length, or stays when there are no rows; the registry is kept; a cell past its row's end is 0, an unregistered symbol is 0, a registered symbol becomes the highest id using it; every loaded id is registered |
| `GridText.Print` | source/core/WorldGrid.hpp:196-205 | the text has height lines of width + 1 characters: character x + y·(width + 1) is the symbol of cell (x, y)'s type, and each line ends with a newline |
| `GridText.PrintLayout` | source/core/WorldGrid.hpp:196-205 | the printed text has (width + 1)·height characters, the symbol of cell (x, y)'s type at x + y·(width + 1), and a newline ending every line |
| `GridText.PrintShowsSymbols` | source/core/WorldGrid.hpp:196-205 | Print writes one line per row and one character per cell, the symbol of that cell's type |
| `GridText.LoadThenPrint` | source/core/WorldGrid.hpp:196-231 | when all rows have one length and every character is a registered symbol, printing the loaded grid gives back the rows |
| `GridText.Serialize` | source/core/WorldGrid.hpp:68-72 | the payload holds two size tokens followed by width·height cell tokens |
| `GridText.Deserialize` | source/core/WorldGrid.hpp:75-79 | succeeds exactly when the payload holds both sizes and that many cells, and keeps the reader's registry |
| `GridText.DeserializeSerialize` | source/core/WorldGrid.hpp:68-79 | deserializing a serialized grid restores width, height and cells, keeps the reader's registry, and gives the same grid when the registries agree |
| `GridText.SerializeDeserialize` | source/core/WorldGrid.hpp:68-79 | serializing a deserialized payload reproduces the tokens read, and the whole payload when it has no trailing tokens |
| `Entities.Entity.SetName` | source/core/Entity.hpp:44 | changes only the name |
| `Entities.Entity.SetLocation` | source/core/Entity.hpp:45 | changes only the location |
| `Entities.NewEntity` | source/core/Entity.hpp:31-32 | keeps the given id and name, starts at the default position, and is neither agent, item nor interface |
| `Entities.IdIsImmutable` | source/core/Entity.hpp:21 | renaming and moving never change the id, and they commute |
| `Entities.CapabilityFlags` | source/core/Entity.hpp:48-55 | an interface is always an agent, and no entity is both an item and an agent |
| `Entities.NewItem` | source/core/ItemBase.hpp:23-24 | a new item keeps its id and name, is at the default position, and is not owned |
| `Entities.IsOwned` | source/core/ItemBase.hpp:32 | an item is owned exactly when its location is a reference to some agent |
| `Entities.GetOwnerID` | source/core/ItemBase.hpp:33-36 | requires the item to be owned; returns the agent number held in its location |
| `Entities.SetOwner` | source/core/ItemBase.hpp:39 | afterwards the item is owned by that agent, whatever its previous location; id and name are kept |
| `Entities.SetOwnerID` | source/core/ItemBase.hpp:40 | the numeric overload: afterwards the item is owned and its owner id is the number given |
| `Entities.OwnerSettersAgree` | source/core/ItemBase.hpp:39-40 | both owner setters give the same item, whose location is exactly the agent reference |
| `Entities.NewAgent` | source/core/AgentBase.hpp:27-33 | a new agent has no actions (every lookup gives 0), last result 1, symbol '*', the default position, and the requested interface flag |
| `Entities.HasAction` | source/core/AgentBase.hpp:54-63 | when no action is registered under id 0, an agent has an action exactly when GetActionID does not return the "unknown" id 0 |
| `Entities.GetActionID` | source/core/AgentBase.hpp:59-63 | returns the registered id for a known name and 0 for an unknown one |
| `Entities.AddAction` | source/core/AgentBase.hpp:80-84 | requires the name to be new; afterwards the name is present with the given id, every other name is unchanged, and nothing else about the agent changes |
| `Entities.SetActionResult` | source/core/AgentBase.hpp:94 | the stored result becomes the given one; nothing else changes |
| `Entities.SetSymbol` | source/core/AgentBase.hpp:39 | the symbol becomes the given one; nothing else changes |
| `Worlds.NewWorld` | source/core/WorldBase.hpp:28-33 | a default world has an empty default grid, no items, no agents, and run_over false |
| `Worlds.GetNumAgents` | source/core/WorldBase.hpp:51 | the number of agents in the collection; with dense ids every agent's id is below it, so it is the next id AddAgent hands out |
| `Worlds.GetItem` | source/core/WorldBase.hpp:54-63 | requires id < item count; returns a member of the item collection, whose id is the one asked for when item ids are dense |
| `Worlds.GetAgent` | source/core/WorldBase.hpp:66-75 | requires id < agent count; returns a member of the agent collection, whose id is the one asked for when ids are dense |
| `Worlds.AddAgent` | source/core/WorldBase.hpp:93-102 | the new agent gets the old agent count as its id; it is configured, then initialized, then appended even when initialization reports failure; earlier agents, grid and items are unchanged; the call fails exactly when configuration asserts |
| `Worlds.AddAgentKeepsDenseIds` | source/core/WorldBase.hpp:94-100 | with AddAgent as the only insertion path, every agent's id equals its index, and the count grows by one |
| `Worlds.AddTwoAgents` | source/core/WorldBase.hpp:93-102 | agents "A" then "B" added to a new world get ids 0 and 1 |
| `Worlds.TakeTurn` | source/core/WorldBase.hpp:118-122 | the agent selects from the current world and the world applies that action; the acting agent ends as the rule left it with the rule's result recorded, and the other agents, items, grid and flag are as the rule left them |
| `Worlds.RunAgentsFrom` | source/core/WorldBase.hpp:117-123 | the round is a chain of worlds starting at the given world and ending at the final one; the k-th turn is TakeTurn for agent i + k on the world the previous turn left; count and ids are preserved; from past the last agent it is the empty round on the given world; a failed turn of agent i fails the round |
| `Worlds.RunAgentsFromStep` | source/core/WorldBase.hpp:117-123 | when agent i's turn completes, the round from agent i completes exactly when the round from agent i + 1 does, and is that round with the turn and the world it started from in front |
| `Worlds.RunAgentsFromSucceeds` | source/core/WorldBase.hpp:117-123 | with a world rule that answers for every existing agent, the round from any agent completes |
| `Worlds.ShapeCons` | source/core/WorldBase.hpp:117-123 | when agent i's turn keeps the agents and the round from agent i + 1 keeps them and numbers its turns from i + 1, the combined round keeps them and numbers its turns from i |
| `Worlds.ChainCons` | source/core/WorldBase.hpp:117-123 | one turn followed by a chain from the next agent is a chain from the current agent |
| `Worlds.RunAgents` | source/core/WorldBase.hpp:117-123 | one round is a chain of TakeTurn steps, turn k for agent k on the world turn k - 1 left, from the given world to the final one; the agent count is unchanged and dense ids stay dense; with no agents it is the empty round; a failed first turn fails it |
| `Worlds.RunAgentsSucceeds` | source/core/WorldBase.hpp:117-123 | with a world rule that answers for every existing agent, a round always completes |
| `Worlds.Loop` | source/core/WorldBase.hpp:131-137 | a loop that repeats any body while run_over is clear passes at most fuel times and stops early only when run_over is set; with the flag already set it makes no pass and returns the world unchanged; with no fuel it returns the world unchanged; on a clear flag with fuel left, a failed body fails the loop |
| `Worlds.LoopStep` | source/core/WorldBase.hpp:133-136 | on a world whose flag is clear and with fuel left, the loop applies the body once and goes on from its result with one less fuel and one more pass counted; a failed body fails the loop |
| `Worlds.LoopWithoutStop` | source/core/WorldBase.hpp:133-136 | when the body never sets a clear flag, a loop started on a clear flag uses all its fuel and ends with the flag clear |
| `Worlds.LoopSucceeds` | source/core/WorldBase.hpp:133-136 | a body that never fails makes the loop complete, for any fuel |
| `Worlds.RunLoop` | source/core/WorldBase.hpp:133-136 | the loop runs at most fuel rounds and stops early only when run_over is set; when run_over is already set it runs no round and returns the world unchanged; with no fuel it returns the world unchanged |
| `Worlds.RunLoopStep` | source/core/WorldBase.hpp:133-136 | for any fuel > 0 and a world whose flag is clear: a failed round makes the loop fail; otherwise the loop's result is the loop, with one less fuel, on UpdateWorld applied after one RunAgents, with one more round counted, and it fails exactly when that loop fails |
| `Worlds.RunLoopFailedRound` | source/core/WorldBase.hpp:133-136 | on a clear flag with fuel left, a round that fails makes the run loop fail |
| `Worlds.RunLoopNextRound` | source/core/WorldBase.hpp:133-136 | on a clear flag with fuel left, after a round that completes the run loop is the loop from UpdateWorld of the round's world, with one less fuel and one more round counted |
| `Worlds.RunLoopSucceeds` | source/core/WorldBase.hpp:131-137 | with a world rule that answers for every existing agent, the run loop completes, for any fuel |
| `Worlds.Run` | source/core/WorldBase.hpp:131-137 | run_over is cleared first, so at least one round runs when fuel allows |
| `Worlds.RunOneRound` | source/core/WorldBase.hpp:131-137 | a one-round Run is exactly one RunAgents on the cleared world followed by one UpdateWorld |
| `Worlds.RunAgentsFromKeepsRunOver` | source/core/WorldBase.hpp:117-123 | a round leaves run_over unchanged when the world rule does; nothing is asked of UpdateWorld |
| `Worlds.RunWithoutStopUsesAllFuel` | source/core/WorldBase.hpp:131-137 | when neither DoAction nor UpdateWorld sets run_over, the loop never stops by itself: it uses all its fuel |
| `Worlds.RoundKeepsFlag` | source/core/WorldBase.hpp:133-136 | when neither hook sets run_over, one round followed by UpdateWorld leaves a clear flag clear |
| `Worlds.GetKnownAgents` | source/core/WorldBase.hpp:149-153 | returns every agent's id, in collection order, one per agent; with dense ids this is 0, 1, ..., n−1 |
| `Worlds.GetKnownItems` | source/core/WorldBase.hpp:157-161 | returns every item's id, in collection order, one per item; their number is GetNumItems |
| `MazeWorlds.ConfigAgent` | source/Worlds/MazeWorld.hpp:23-28 | registers "up", "down", "left", "right" with ids 1 to 4; no new name gets id 0 (REMAIN_STILL); earlier actions, id, name, location, last result, symbol and interface flag are unchanged |
| `MazeWorlds.ConfigHook` | source/Worlds/MazeWorld.hpp:23-28 | configuration succeeds exactly when none of the four names is already registered |
| `MazeWorlds.ConfigHookKeepsId` | source/Worlds/MazeWorld.hpp:23-28 | configuration never changes an agent's id |
| `MazeWorlds.NewMaze` | source/Worlds/MazeWorld.hpp:31-46 | floor gets id 1 and wall id 2, after the reserved type 0; the loaded maze is 23 by 11 and every cell holds the id its character in the maze rows loads as; there are no agents or items |
| `MazeWorlds.MazeSymbols` | source/Worlds/MazeWorld.hpp:32-33 | with the maze's registry, ' ' loads as floor (1) and '#' as wall (2) |
| `MazeWorlds.MazeStartIsFloor` | source/Worlds/MazeWorld.hpp:35-45 | the maze cell (1, 1), where the demonstration program places its interface agent, is floor |
| `MazeWorlds.DoAction` | source/Worlds/MazeWorld.hpp:50-70 | requires the agent to be on the grid; returns 1 exactly when the target is on the grid and not a wall, and then moves the agent there and changes nothing else; otherwise returns 0 and leaves the agent unchanged |
| `MazeWorlds.RemainStillTargetsCurrentCell` | source/Worlds/MazeWorld.hpp:55 | REMAIN_STILL never moves the agent, and succeeds exactly when its own cell is enterable |
| `MazeWorlds.Target` | source/Worlds/MazeWorld.hpp:53-60 | REMAIN_STILL keeps the position; each move changes one coordinate by one (up lowers y, down raises y, left lowers x, right raises x); any other id gives the default position (0,0) |
| `MazeWorlds.Rule` | source/Worlds/MazeWorld.hpp:50-70 | the maze rule answers exactly for an agent that exists and stands on the grid (the location must be a position, line 52); it then changes only that agent, to the agent and result DoAction gives, and keeps the grid, items, flag and agent count |
| `MazeWorlds.UnknownActionTargetsOrigin` | source/Worlds/MazeWorld.hpp:53-60 | an action id above MOVE_RIGHT targets the default position (0,0) |
| `MazeWorlds.RuleKeepsAgents` | source/Worlds/MazeWorld.hpp:50-70 | the maze rule neither adds, removes nor renumbers agents |
| `MazeWorlds.AddAgent` | source/Worlds/MazeWorld.hpp:23-28 | adding an agent to the maze appends it with id = old count after configuring it with the four moves; it fails exactly when the constructed agent already has one of the four names; the grid, the items, the stop flag and the earlier agents are unchanged |
| `MazeWorlds.AddedAgentHasMoves` | source/Worlds/MazeWorld.hpp:17-28 | a plain agent added to the maze has exactly the four moves, with ids 1 to 4, none of them 0 |
| `MazeWorlds.MazeTurn` | source/core/WorldBase.hpp:118-122 | in the maze, for agents whose choice depends on themselves and the grid, agent i's turn moves agent i as if it were alone and changes nothing else |
| `MazeWorlds.RoundFrom` | source/core/WorldBase.hpp:117-123 | in the maze, for agents whose choice depends on themselves and the grid, the rest of a round from agent i moves each later agent as if it were alone, in order |
| `MazeWorlds.OwnTurnsCons` | source/core/WorldBase.hpp:117-123 | agent i's own maze turn followed by the own turns of agents i + 1 onward are the own turns of agents i onward |
| `MazeWorlds.RoundMovesEachAgent` | source/Worlds/MazeWorld.hpp:50-70 | a maze round on agents that are all on the grid never aborts; when each agent's choice depends only on itself and the grid, the round equals moving each agent independently on the unchanged grid, with turn k recording agent k's selection and result |
| `MazeWorlds.FloorTurn` | source/Worlds/MazeWorld.hpp:63-69 | whatever agent i selects, its turn keeps every agent on an enterable cell and records 0 or 1, with 0 only when it has not moved |
| `MazeWorlds.FloorFrom` | source/core/WorldBase.hpp:117-123 | the rest of a round from agent i, whatever the agents select, keeps the same facts for every agent |
| `MazeWorlds.RoundKeepsAgentsOnFloor` | source/Worlds/MazeWorld.hpp:63-69 | for any selection, including one that queries the world: if every agent stands on an enterable cell, it still does after a round; every result is 0 or 1; an agent with result 0 has not moved |
| `MazeWorlds.WallBlocksMove` | source/Worlds/MazeWorld.hpp:58-64 | on a 3-by-1 grid loaded from "# #" the cells are wall, floor, wall; an agent at (1, 0) moving left gets 0 and stays |

## Left out

- Floating point: coordinates are exact reals. NaN, rounding in `GetOffset` and the `size_t` cast of huge doubles are not modelled.
- `size_t` wrap-around: `width * height`, `x + y * width` and `cell_types.size() - 1` are unbounded naturals. The source's 64-bit wrap only matters for grids far beyond memory.
- `Deserialize` on a short or malformed stream: the model refuses such payloads with `None`. The source instead leaves zero-filled or partially read state after the stream fails. Whitespace and `std::endl` formatting of the payload are not modelled.
- `Load(std::istream&)` and `LoadStream`: these only read lines from a stream. `Print`'s stream and `flush` become the returned string.
- `GetSymbol(WorldPosition)`: it uses the same unguarded index as the position read, followed by an unchecked registry lookup, and only the text interface calls it.
- The position-indexed write (`operator[]` returning a reference): it has the same unguarded index as the read.
- `GetTypeName`, `GetWidth`, `GetHeight`, `GetNumCells`, `GetCellTypes`, `X`, `Y`, `GetID`, `GetName`, `GetLocation`, `GetGrid`, `IsRunOver`, `GetNumItems`, `GetActionResult`, `GetSymbol`: these are plain field reads of the datatypes.
- The entity's `const WorldBase &` back-reference: `select` receives the world instead. `Initialize` sees only the agent.
- `SelectAction` side effects and the private state of derived agents: `select` is a pure function of the world and the agent's index, so it cannot change the agent or remember anything between turns.
- `Worlds.AddAgent`: `config` sees and changes only the new agent. The source's `ConfigAgent` is a member of the world and could also change the world. So "grid, items and earlier agents unchanged" holds for configurations that leave the world alone, not for every override.
- `MazeWorlds.RoundMovesEachAgent`: holds only for agents whose choice depends on themselves and the grid (`LocalSelect`). An agent that queries the other agents, as the text interface does, may choose differently after an earlier agent's move. `MazeWorlds.RoundKeepsAgentsOnFloor` has no such hypothesis.
- `Notify`: it is a no-op. The default `Initialize` is `BaseInitialize` and the default `ConfigAgent` is `BaseConfig`. The default `UpdateWorld` is any `update` passed in, the identity included.
- The `std::cerr` message when `Initialize` fails: only the fact that the agent is still added is modelled.
- `Run`'s unbounded loop: it is bounded by `fuel` rounds. Behaviour after the fuel runs out, including non-termination, is not modelled.
- The text interface (console drawing, blocking input, `exit(0)`) and the demonstration `main`: these are I/O and process control.
- `InterfaceBase`: it contributes only `IsInterface() == true`, modelled by the interface flag of the agent kind.
- Copy and move constructors, destructors, and the deleted copy of `Entity`: values are immutable here.
- `Worlds.GetItem`: states the id of the result only when item ids are dense. The core has no item-insertion path, so nothing makes item ids dense.

## Findings

| source | as written | input that shows it | evidently intended | confidence | as-written member | corrected member |
|---|---|---|---|---|---|---|
| source/core/WorldGrid.hpp:123 | the position overload of `operator[]` indexes `cells[CellX + CellY * width]` and never checks `IsValid` | a grid of width w ≥ 1 and height ≥ 2, position (w, 0): off the grid, yet the read returns cell (0, 1) | the same `IsValid` assertion as the integral overload at lines 112-115 | medium; not executed | `Grids.ReadAt` / `Grids.ReadAtWrapsIntoNextRow` | `Grids.CellAt` |

`MazeWorld::DoAction` checks `IsValid` before the position read, so the maze model uses `Grids.CellAt` with no change in behaviour.

=== FILE: entities.dfy ===
/**
 * Entities placed in a world: a common identity record (id, name, location)
 * plus a kind standing for the entity's dynamic type.  Items and agents are
 * the entities of the matching kind; an agent carries its action table, the
 * result of its last action and its display symbol.
 */
module Entities {
  import opened Positions
  import opened Locations

  /** The dynamic type: a bare entity, an item, or an agent (possibly an interface agent). */
  datatype Kind =
    | PlainKind
    | ItemKind
    | AgentKind(actions: map<string, nat>, actionResult: int, symbol: char, isInterface: bool)

  datatype Entity = Entity(id: nat, name: string, location: Location, kind: Kind) {

    predicate IsAgent() { kind.AgentKind? }
    predicate IsItem() { kind.ItemKind? }
    predicate IsInterface() { kind.AgentKind? && kind.isInterface }

    /** Rename; nothing else changes. */
    function SetName(newName: string): (e: Entity)
      ensures e.name == newName
      ensures e.id == id && e.location == location && e.kind == kind
    {
      this.(name := newName)
    }

    /** Move; nothing else changes. */
    function SetLocation(newLocation: Location): (e: Entity)
      ensures e.location == newLocation
      ensures e.id == id && e.name == name && e.kind == kind
    {
      this.(location := newLocation)
    }
  }

  /** A base entity: at the default position and of no special kind. */
  function NewEntity(id: nat, name: string): (e: Entity)
    ensures e.id == id && e.name == name && e.location == DefaultLocation
    ensures !e.IsAgent() && !e.IsItem() && !e.IsInterface()
  {
    Entity(id, name, DefaultLocation, PlainKind)
  }

  /** Renaming and moving never change an entity's id or kind. */
  lemma IdIsImmutable(e: Entity, n: string, l: Location)
    ensures e.SetName(n).id == e.id && e.SetLocation(l).id == e.id
    ensures e.SetName(n).SetLocation(l) == e.SetLocation(l).SetName(n)
  {
  }

  /** The capability flags: an interface is an agent, and no entity is both item and agent. */
  lemma CapabilityFlags(e: Entity)
    ensures e.IsInterface() ==> e.IsAgent()
    ensures !(e.IsItem() && e.IsAgent())
  {
  }

  // ---------------------------------------------------------------------------
  // Items
  // ---------------------------------------------------------------------------

  type Item = e: Entity | e.IsItem() witness Entity(0, "", At(Position(0.0, 0.0)), ItemKind)

  function NewItem(id: nat, name: string): (it: Item)
    ensures it.id == id && it.name == name && it.location == DefaultLocation
    ensures !IsOwned(it)
  {
    Entity(id, name, DefaultLocation, ItemKind)
  }

  /** An item is owned exactly when its location is an agent reference. */
  predicate IsOwned(it: Item)
    ensures IsOwned(it) <==> exists n: nat :: it.location == HeldBy(AgentId(n))
  {
    assert it.location.HeldBy? ==> it.location == HeldBy(AgentId(it.location.agent.id));
    it.location.IsAgentId()
  }

  /** The owning agent's id; asking an unowned item is a contract violation. */
  function GetOwnerID(it: Item): (n: nat)
    requires IsOwned(it)
    ensures it.location == HeldBy(AgentId(n))
  {
    it.location.AsAgentId()
  }

  /** Give the item to an agent, replacing its whole location. */
  function SetOwner(it: Item, owner: AgentId): (r: Item)
    ensures IsOwned(r) && GetOwnerID(r) == owner.id
    ensures r.id == it.id && r.name == it.name
  {
    it.SetLocation(HeldBy(owner))
  }

  /** The overload taking a plain number. */
  function SetOwnerID(it: Item, owner: nat): (r: Item)
    ensures IsOwned(r) && GetOwnerID(r) == owner
    ensures r.id == it.id && r.name == it.name
  {
    SetOwner(it, AgentId(owner))
  }

  /** Both owner setters have the same effect, whatever the previous location. */
  lemma OwnerSettersAgree(it: Item, n: nat)
    ensures SetOwnerID(it, n) == SetOwner(it, AgentId(n))
    ensures SetOwnerID(it, n).location == HeldBy(AgentId(n))
  {
  }

  // ---------------------------------------------------------------------------
  // Agents
  // ---------------------------------------------------------------------------

  type Agent = e: Entity | e.IsAgent() witness Entity(0, "", At(Position(0.0, 0.0)), AgentKind(map[], 1, '*', false))

  /** A fresh agent: no actions, last result 1, symbol '*', at the default position. */
  function NewAgent(id: nat, name: string, isInterface: bool): (a: Agent)
    ensures a.id == id && a.name == name && a.location == DefaultLocation
    ensures forall n :: !HasAction(a, n) && GetActionID(a, n) == 0
    ensures GetActionResult(a) == 1 && GetSymbol(a) == '*'
    ensures a.IsInterface() == isInterface
  {
    Entity(id, name, DefaultLocation, AgentKind(map[], 1, '*', isInterface))
  }

  /** No name is registered under 0, the "no action" id. */
  predicate NoZeroAction(a: Agent)
  {
    forall n :: n in a.kind.actions ==> a.kind.actions[n] != 0
  }

  /**
   * The name is registered.  While 0 stays unregistered, this is the same as
   * its id lookup not answering "no action".
   */
  predicate HasAction(a: Agent, actionName: string)
    ensures NoZeroAction(a) ==> (HasAction(a, actionName) <==> GetActionID(a, actionName) != 0)
  {
    actionName in a.kind.actions
  }

  /** The id registered under a name, or 0 ("no action") when there is none. */
  function GetActionID(a: Agent, actionName: string): (id: nat)
    ensures actionName in a.kind.actions ==> id == a.kind.actions[actionName]
    ensures actionName !in a.kind.actions ==> id == 0
  {
    if actionName in a.kind.actions then a.kind.actions[actionName] else 0
  }

  /** Register an action; registering a name twice is a contract violation. */
  function AddAction(a: Agent, actionName: string, actionId: nat): (r: Agent)
    requires !HasAction(a, actionName)
    ensures HasAction(r, actionName) && GetActionID(r, actionName) == actionId
    ensures forall n :: n != actionName ==> HasAction(r, n) == HasAction(a, n) && GetActionID(r, n) == GetActionID(a, n)
    ensures r.id == a.id && r.name == a.name && r.location == a.location
    ensures GetActionResult(r) == GetActionResult(a) && GetSymbol(r) == GetSymbol(a) && r.IsInterface() == a.IsInterface()
  {
    a.(kind := a.kind.(actions := a.kind.actions[actionName := actionId]))
  }

  function GetActionResult(a: Agent): int
  {
    a.kind.actionResult
  }

  /** Record the result of the agent's latest action; nothing else changes. */
  function SetActionResult(a: Agent, result: int): (r: Agent)
    ensures GetActionResult(r) == result
    ensures r.id == a.id && r.name == a.name && r.location == a.location
    ensures r.kind.actions == a.kind.actions && GetSymbol(r) == GetSymbol(a) && r.IsInterface() == a.IsInterface()
  {
    a.(kind := a.kind.(actionResult := result))
  }

  function GetSymbol(a: Agent): char
  {
    a.kind.symbol
  }

  /** Change the display symbol; nothing else changes. */
  function SetSymbol(a: Agent, c: char): (r: Agent)
    ensures GetSymbol(r) == c
    ensures r.id == a.id && r.name == a.name && r.location == a.location
    ensures r.kind.actions == a.kind.actions && GetActionResult(r) == GetActionResult(a) && r.IsInterface() == a.IsInterface()
  {
    a.(kind := a.kind.(symbol := c))
  }
}

=== FILE: grids.dfy ===
/**
 * The dense 2D grid of cell-type ids and its registry of cell types.
 * Cells are stored by rows, top to bottom; the cell at column x of row y is
 * at index x + y * width.  Type id 0 is the reserved "Unknown" type.
 */
module Grids {
  import opened Positions

  /** A kind of cell (wall, floor, ...) with a display symbol for text I/O. */
  datatype CellType = CellType(name: string, desc: string, symbol: char)

  /** The type every grid registers first, at id 0. */
  const UnknownType := CellType("Unknown", "This is an invalid cell type and should not be reachable.", '\0')

  datatype WorldGrid = WorldGrid(width: nat, height: nat, cellTypes: seq<CellType>, cells: seq<nat>) {

    /** What every constructor and operation keeps. */
    predicate Valid()
    {
      |cells| == width * height && |cellTypes| > 0 && cellTypes[0] == UnknownType
    }

    /** Real-valued coordinates inside the grid. */
    predicate IsValid(x: real, y: real)
    {
      0.0 <= x < width as real && 0.0 <= y < height as real
    }

    predicate IsValidPos(p: Position)
    {
      IsValid(p.x, p.y)
    }
  }

  type Grid = g: WorldGrid | g.Valid() witness WorldGrid(0, 0, [UnknownType], [])

  // ---------------------------------------------------------------------------
  // Index arithmetic
  // ---------------------------------------------------------------------------

  /** Row-major index of column x, row y in a grid of the given width. */
  function Index(width: nat, x: nat, y: nat): nat
  {
    x + y * width
  }

  lemma MulLeft(a: nat, b: nat, c: nat)
    requires a <= b
    ensures a * c <= b * c
  {
  }

  /** A cell inside a width-by-height rectangle has an index below width * height. */
  lemma {:induction false} IndexInRange(width: nat, height: nat, x: nat, y: nat)
    requires x < width && y < height
    ensures Index(width, x, y) < width * height
  {
    MulLeft(y + 1, height, width);
    assert x + y * width < (y + 1) * width;
    assert height * width == width * height;
  }

  /** Distinct cells of the same width have distinct indices. */
  lemma {:induction false} IndexInjective(width: nat, x1: nat, y1: nat, x2: nat, y2: nat)
    requires x1 < width && x2 < width
    requires Index(width, x1, y1) == Index(width, x2, y2)
    ensures x1 == x2 && y1 == y2
  {
    if y1 < y2 {
      MulLeft(y1 + 1, y2, width);
      assert false;
    } else if y2 < y1 {
      MulLeft(y2 + 1, y1, width);
      assert false;
    }
  }

  /** Every index below width * height is the index of exactly one cell: column i % width of row i / width. */
  lemma Unflatten(width: nat, height: nat, i: nat)
    requires i < width * height
    ensures width > 0 && i % width < width && i / width < height
    ensures Index(width, i % width, i / width) == i
  {
    if i / width >= height {
      MulLeft(height, i / width, width);
    }
  }

  /** The two facts above, for every cell of a width-by-height rectangle. */
  lemma IndexFacts(width: nat, height: nat)
    ensures forall x: nat, y: nat :: x < width && y < height ==> Index(width, x, y) < width * height
    ensures forall x1: nat, y1: nat, x2: nat, y2: nat
              {:trigger Index(width, x1, y1), Index(width, x2, y2)} ::
              x1 < width && x2 < width && Index(width, x1, y1) == Index(width, x2, y2) ==> x1 == x2 && y1 == y2
  {
    forall x: nat, y: nat | x < width && y < height
      ensures Index(width, x, y) < width * height
    {
      IndexInRange(width, height, x, y);
    }
    forall x1: nat, y1: nat, x2: nat, y2: nat
      | x1 < width && x2 < width && Index(width, x1, y1) == Index(width, x2, y2)
      ensures x1 == x2 && y1 == y2
    {
      IndexInjective(width, x1, y1, x2, y2);
    }
  }

  /** Integral coordinates are valid exactly when they lie below width and height. */
  lemma IsValidCell(g: WorldGrid, x: nat, y: nat)
    ensures g.IsValid(x as real, y as real) <==> x < g.width && y < g.height
  {
  }

  // ---------------------------------------------------------------------------
  // Construction and cell access
  // ---------------------------------------------------------------------------

  /** A width-by-height grid filled with `defaultType`; only the Unknown type is registered. */
  function NewGrid(width: nat, height: nat, defaultType: nat): (g: Grid)
    ensures g.width == width && g.height == height
    ensures g.cellTypes == [UnknownType] && g.cellTypes[0].name == "Unknown"
    ensures forall x: nat, y: nat :: x < width && y < height ==> Get(g, x, y) == defaultType
  {
    IndexFacts(width, height);
    WorldGrid(width, height, [UnknownType], seq(width * height, _ => defaultType))
  }

  /** The default constructor: an empty grid. */
  function EmptyGrid(): (g: Grid)
    ensures g.width == 0 && g.height == 0 && |g.cells| == 0 && g.cellTypes == [UnknownType]
  {
    NewGrid(0, 0, 0)
  }

  /** A column below the width and any row are recovered from their index by % and /. */
  lemma IndexDecodes(width: nat, x: nat, y: nat)
    requires x < width
    ensures Index(width, x, y) % width == x && Index(width, x, y) / width == y
  {
    var i := Index(width, x, y);
    IndexInRange(width, y + 1, x, y);
    Unflatten(width, y + 1, i);
    IndexInjective(width, i % width, i / width, x, y);
  }

  /**
   * The row-major index of integral coordinates: the column and row come back
   * as i % width and i / width, and valid coordinates index the cell vector.
   */
  function ToIndex(g: Grid, x: nat, y: nat): (i: nat)
    ensures x < g.width ==> i % g.width == x && i / g.width == y
    ensures g.IsValid(x as real, y as real) ==> i < |g.cells|
  {
    IndexFacts(g.width, g.height);
    if x < g.width then
      IndexDecodes(g.width, x, y);
      Index(g.width, x, y)
    else
      Index(g.width, x, y)
  }

  /** Read the cell at integral coordinates; out-of-range coordinates are a contract violation. */
  function Get(g: Grid, x: nat, y: nat): (v: nat)
    requires g.IsValid(x as real, y as real)
    ensures Index(g.width, x, y) < |g.cells| && v == g.cells[Index(g.width, x, y)]
  {
    g.cells[ToIndex(g, x, y)]
  }

  /** Write the cell at integral coordinates; out-of-range coordinates are a contract violation. */
  function Set(g: Grid, x: nat, y: nat, v: nat): (r: Grid)
    requires g.IsValid(x as real, y as real)
    ensures r.width == g.width && r.height == g.height && r.cellTypes == g.cellTypes
    ensures Get(r, x, y) == v
    ensures forall x': nat, y': nat :: g.IsValid(x' as real, y' as real) && (x', y') != (x, y) ==>
              Get(r, x', y') == Get(g, x', y')
  {
    IndexFacts(g.width, g.height);
    g.(cells := g.cells[ToIndex(g, x, y) := v])
  }

  /**
   * Read the cell holding a position, as the position overload of the index
   * operator does: it computes i = CellX + CellY * width and reads the cell
   * vector there with no bounds check.  CellX and CellY assert non-negative
   * coordinates; the model also requires i inside the cell vector, which the
   * source does not check.  A
   * column past the right edge therefore wraps: the result is the cell at
   * column i % width of row i / width, which is the cell at the position only
   * when it is valid.
   */
  function ReadAt(g: Grid, p: Position): (v: nat)
    requires p.x >= 0.0 && p.y >= 0.0
    requires Index(g.width, p.CellX(), p.CellY()) < |g.cells|
    ensures var i := Index(g.width, p.CellX(), p.CellY());
            && g.width > 0 && i % g.width < g.width && i / g.width < g.height
            && v == Get(g, i % g.width, i / g.width)
    ensures g.IsValidPos(p) ==> v == Get(g, p.CellX(), p.CellY())
  {
    Unflatten(g.width, g.height, Index(g.width, p.CellX(), p.CellY()));
    g.cells[Index(g.width, p.CellX(), p.CellY())]
  }

  /**
   * A position one column past the right edge of row 0 is off the grid, yet
   * reading it returns the first cell of row 1.
   */
  lemma ReadAtWrapsIntoNextRow(g: Grid)
    requires g.width > 0 && g.height >= 2
    ensures !g.IsValidPos(Position(g.width as real, 0.0))
    ensures ReadAt(g, Position(g.width as real, 0.0)) == Get(g, 0, 1)
  {
  }

  /** Read the cell holding a position that lies on the grid. */
  function CellAt(g: Grid, p: Position): (v: nat)
    requires g.IsValidPos(p)
    ensures v == Get(g, p.CellX(), p.CellY())
  {
    IndexInRange(g.width, g.height, p.CellX(), p.CellY());
    ReadAt(g, p)
  }

  /** Every stored type id names a registered type. */
  ghost predicate Typed(g: Grid)
  {
    forall x: nat, y: nat :: x < g.width && y < g.height ==> Get(g, x, y) < |g.cellTypes|
  }

  // ---------------------------------------------------------------------------
  // Cell-type registry
  // ---------------------------------------------------------------------------

  /** Register a new cell type; its id is the previous registry length. */
  function AddCellType(g: Grid, name: string, desc: string, symbol: char): (r: (Grid, nat))
    ensures r.1 == |g.cellTypes|
    ensures |r.0.cellTypes| == |g.cellTypes| + 1
    ensures r.0.cellTypes[..|g.cellTypes|] == g.cellTypes
    ensures r.0.cellTypes[r.1] == CellType(name, desc, symbol)
    ensures r.0.width == g.width && r.0.height == g.height && r.0.cells == g.cells
  {
    (g.(cellTypes := g.cellTypes + [CellType(name, desc, symbol)]), |g.cellTypes|)
  }

  /** Linear scan from id 1 for a type with this name; 0 when there is none. */
  method GetCellTypeID(g: Grid, name: string) returns (id: nat)
    ensures id < |g.cellTypes|
    ensures id == 0 <==> forall i :: 1 <= i < |g.cellTypes| ==> g.cellTypes[i].name != name
    ensures id != 0 ==> g.cellTypes[id].name == name && forall i :: 1 <= i < id ==> g.cellTypes[i].name != name
  {
    var i := 1;
    while i < |g.cellTypes|
      invariant 1 <= i <= |g.cellTypes|
      invariant forall j :: 1 <= j < i ==> g.cellTypes[j].name != name
    {
      if g.cellTypes[i].name == name {
        return i;
      }
      i := i + 1;
    }
    return 0;
  }

  /** Name of a type id; ids past the registry fall back to type 0, "Unknown". */
  function GetCellTypeName(g: Grid, id: nat): (name: string)
    ensures id < |g.cellTypes| ==> name == g.cellTypes[id].name
    ensures id >= |g.cellTypes| ==> name == UnknownType.name
  {
    if id >= |g.cellTypes| then g.cellTypes[0].name else g.cellTypes[id].name
  }

  /** Symbol of a type id; ids past the registry fall back to type 0, '\0'. */
  function GetCellTypeSymbol(g: Grid, id: nat): (symbol: char)
    ensures id < |g.cellTypes| ==> symbol == g.cellTypes[id].symbol
    ensures id >= |g.cellTypes| ==> symbol == UnknownType.symbol
  {
    if id >= |g.cellTypes| then g.cellTypes[0].symbol else g.cellTypes[id].symbol
  }

  /** Registered ids name their own type; every other id reads as Unknown. */
  lemma CellTypeLookup(g: Grid, id: nat)
    ensures id < |g.cellTypes| ==>
              GetCellTypeName(g, id) == g.cellTypes[id].name && GetCellTypeSymbol(g, id) == g.cellTypes[id].symbol
    ensures id >= |g.cellTypes| ==> GetCellTypeName(g, id) == "Unknown" && GetCellTypeSymbol(g, id) == '\0'
    ensures GetCellTypeName(g, 0) == "Unknown"
  {
  }

  /** A newly added type is found under its id, and every earlier id reads as before. */
  lemma AddedTypeLookup(g: Grid, name: string, desc: string, symbol: char, id: nat)
    ensures var (r, n) := AddCellType(g, name, desc, symbol);
            GetCellTypeName(r, n) == name && GetCellTypeSymbol(r, n) == symbol &&
            (id < n ==> GetCellTypeName(r, id) == GetCellTypeName(g, id) &&
                        GetCellTypeSymbol(r, id) == GetCellTypeSymbol(g, id))
  {
  }

  // ---------------------------------------------------------------------------
  // Resizing
  // ---------------------------------------------------------------------------

  function Min(a: nat, b: nat): nat
  {
    if a < b then a else b
  }

  /**
   * Resize to newWidth by newHeight: the overlap with the old rectangle keeps
   * its values, every other cell holds `defaultType`.
   */
  method Resize(g: Grid, newWidth: nat, newHeight: nat, defaultType: nat) returns (r: Grid)
    ensures r.width == newWidth && r.height == newHeight && r.cellTypes == g.cellTypes
    ensures forall x: nat, y: nat :: x < newWidth && y < newHeight ==>
              Get(r, x, y) == (if x < g.width && y < g.height then Get(g, x, y) else defaultType)
  {
    IndexFacts(newWidth, newHeight);
    IndexFacts(g.width, g.height);
    var newCells: seq<nat> := seq(newWidth * newHeight, _ => defaultType);
    var minWidth := Min(g.width, newWidth);
    var minHeight := Min(g.height, newHeight);
    var x := 0;
    while x < minWidth
      invariant x <= minWidth
      invariant |newCells| == newWidth * newHeight
      invariant forall a: nat, b: nat :: a < newWidth && b < newHeight ==>
                  newCells[Index(newWidth, a, b)] ==
                  (if a < x && b < minHeight then g.cells[Index(g.width, a, b)] else defaultType)
    {
      var y := 0;
      while y < minHeight
        invariant y <= minHeight
        invariant |newCells| == newWidth * newHeight
        invariant forall a: nat, b: nat :: a < newWidth && b < newHeight ==>
                    newCells[Index(newWidth, a, b)] ==
                    (if (a < x && b < minHeight) || (a == x && b < y) then g.cells[Index(g.width, a, b)] else defaultType)
      {
        newCells := newCells[Index(newWidth, x, y) := g.cells[Index(g.width, x, y)]];
        y := y + 1;
      }
      x := x + 1;
    }
    r := WorldGrid(newWidth, newHeight, g.cellTypes, newCells);
  }
}

=== FILE: gridtext.dfy ===
/**
 * Text and token I/O of a grid: loading from rows of symbols, printing rows
 * of symbols, and the flat `width height cells...` payload.
 */
module GridText {
  import opened Wrappers
  import opened Grids

  // ---------------------------------------------------------------------------
  // Symbol map
  // ---------------------------------------------------------------------------

  /** Some registered type uses symbol c. */
  ghost predicate HasSymbol(types: seq<CellType>, c: char)
  {
    exists i :: 0 <= i < |types| && types[i].symbol == c
  }

  /** Type i uses symbol c and no later type does. */
  predicate LastWithSymbol(types: seq<CellType>, c: char, i: nat)
  {
    i < |types| && types[i].symbol == c && forall j :: i < j < |types| ==> types[j].symbol != c
  }

  /**
   * The symbol-to-id map built by assigning each type's id under its symbol in
   * registration order, so the later type wins a shared symbol.
   */
  function BuildSymbolMap(types: seq<CellType>): (m: map<char, nat>)
    ensures forall c :: c in m <==> HasSymbol(types, c)
    ensures forall c :: c in m ==> LastWithSymbol(types, c, m[c])
  {
    if |types| == 0 then map[]
    else
      var prefix := types[..|types| - 1];
      var last := |types| - 1;
      var m := BuildSymbolMap(prefix);
      AppendSymbol(prefix, types[last]);
      assert types == prefix + [types[last]];
      m[types[last].symbol := last]
  }

  /**
   * Registering one more type adds its symbol, and a symbol it does not use
   * keeps the id that was last registered for it.
   */
  lemma AppendSymbol(prefix: seq<CellType>, t: CellType)
    ensures forall c :: HasSymbol(prefix + [t], c) <==> HasSymbol(prefix, c) || c == t.symbol
    ensures forall c, i: nat :: LastWithSymbol(prefix, c, i) && c != t.symbol ==> LastWithSymbol(prefix + [t], c, i)
    ensures LastWithSymbol(prefix + [t], t.symbol, |prefix|)
  {
    var types := prefix + [t];
    forall c | HasSymbol(prefix, c) ensures HasSymbol(types, c) {
      var i :| 0 <= i < |prefix| && prefix[i].symbol == c;
      assert types[i].symbol == c;
    }
    forall c | HasSymbol(types, c) && c != t.symbol ensures HasSymbol(prefix, c) {
      var i :| 0 <= i < |types| && types[i].symbol == c;
      assert prefix[i].symbol == c;
    }
    assert types[|prefix|] == t;
  }

  /** Look a character up the way the map's index operator does: a missing key reads as 0. */
  function Lookup(m: map<char, nat>, c: char): nat
  {
    if c in m then m[c] else 0
  }

  // ---------------------------------------------------------------------------
  // Row-major flattening
  // ---------------------------------------------------------------------------

  /** Concatenate the rows, top to bottom. */
  function Flatten<T>(rows: seq<seq<T>>): seq<T>
  {
    if |rows| == 0 then [] else rows[0] + Flatten(rows[1..])
  }

  /** Flattening equal-length rows gives width cells per row. */
  lemma {:induction false} FlattenLength<T>(rows: seq<seq<T>>, width: nat)
    requires forall y :: 0 <= y < |rows| ==> |rows[y]| == width
    ensures |Flatten(rows)| == width * |rows|
  {
    if |rows| > 0 {
      FlattenLength(rows[1..], width);
      assert width * |rows| == width + width * (|rows| - 1);
    }
  }

  /** Flattening equal-length rows puts column x of row y at Index(width, x, y). */
  lemma {:induction false} FlattenIndex<T>(rows: seq<seq<T>>, width: nat)
    requires forall y :: 0 <= y < |rows| ==> |rows[y]| == width
    ensures |Flatten(rows)| == width * |rows|
    ensures forall x: nat, y: nat :: x < width && y < |rows| ==>
              Index(width, x, y) < |Flatten(rows)| && Flatten(rows)[Index(width, x, y)] == rows[y][x]
  {
    FlattenLength(rows, width);
    if |rows| > 0 {
      var tail := rows[1..];
      FlattenIndex(tail, width);
      assert Flatten(rows) == rows[0] + Flatten(tail);
      forall x: nat, y: nat | x < width && y < |rows|
        ensures Index(width, x, y) < |Flatten(rows)| && Flatten(rows)[Index(width, x, y)] == rows[y][x]
      {
        IndexInRange(width, |rows|, x, y);
        if y == 0 {
          assert Index(width, x, 0) == x;
        } else {
          RowStep(width, x, y);
          assert Flatten(tail)[Index(width, x, y - 1)] == tail[y - 1][x];
        }
      }
    }
  }

  /** One cell of a flattening of equal-length rows. */
  lemma FlattenAt<T>(rows: seq<seq<T>>, width: nat, x: nat, y: nat)
    requires forall y :: 0 <= y < |rows| ==> |rows[y]| == width
    requires x < width && y < |rows|
    ensures Index(width, x, y) < |Flatten(rows)| && Flatten(rows)[Index(width, x, y)] == rows[y][x]
  {
    FlattenIndex(rows, width);
  }

  lemma RowStep(width: nat, x: nat, y: nat)
    requires y > 0
    ensures Index(width, x, y) == width + Index(width, x, y - 1)
  {
  }

  // ---------------------------------------------------------------------------
  // Load and Print
  // ---------------------------------------------------------------------------

  /** What Load stores for column x of `rows[y]`. */
  ghost predicate LoadedCell(types: seq<CellType>, rows: seq<string>, x: nat, y: nat, v: nat)
    requires y < |rows|
  {
    if x < |rows[y]| && HasSymbol(types, rows[y][x]) then LastWithSymbol(types, rows[y][x], v) else v == 0
  }

  /**
   * Load the grid from rows of symbols.  The height becomes the row count and
   * the width the length of the first row (unchanged when there are no rows);
   * a short row is padded with 0 and an unknown symbol reads as 0.
   */
  function Load(g: Grid, rows: seq<string>): (r: Grid)
    ensures r.height == |rows|
    ensures r.width == (if |rows| > 0 then |rows[0]| else g.width)
    ensures r.cellTypes == g.cellTypes
    ensures forall x: nat, y: nat :: x < r.width && y < r.height ==>
              LoadedCell(g.cellTypes, rows, x, y, Get(r, x, y))
    ensures Typed(r)
  {
    var width := if |rows| > 0 then |rows[0]| else g.width;
    var symbols := BuildSymbolMap(g.cellTypes);
    var ids: seq<seq<nat>> := seq(|rows|, y requires 0 <= y < |rows| =>
                 seq(width, x requires 0 <= x < width =>
                   if x < |rows[y]| then Lookup(symbols, rows[y][x]) else 0));
    FlattenIndex(ids, width);
    WorldGrid(width, |rows|, g.cellTypes, Flatten(ids))
  }

  /** Each row rendered as the symbols of its cells. */
  function Rows(g: Grid): (rows: seq<string>)
    requires Typed(g)
  {
    seq(g.height, y requires 0 <= y < g.height =>
      seq(g.width, x requires 0 <= x < g.width => g.cellTypes[Get(g, x, y)].symbol))
  }

  /** Where the symbol of cell (x, y) sits in a text of width-character lines. */
  function SymbolAt(width: nat, x: nat, y: nat): nat
  {
    Index(width + 1, x, y)
  }

  /** Where the newline ending line y of a text of width-character lines sits. */
  function LineEnd(width: nat, y: nat): nat
  {
    Index(width + 1, width, y)
  }

  /** Each row followed by a newline. */
  function Lines(rows: seq<string>): seq<string>
  {
    seq(|rows|, y requires 0 <= y < |rows| => rows[y] + "\n")
  }

  /** The rows as one text, each line ended by a newline. */
  function Terminate(rows: seq<string>): string
  {
    Flatten(Lines(rows))
  }

  /**
   * The text Print writes: one line per row, no border.  Line y holds the
   * symbol of every cell of row y and then a newline, so the symbol of cell
   * (x, y) is character x + y * (width + 1).
   */
  function Print(g: Grid): (s: string)
    requires Typed(g)
    ensures |s| == (g.width + 1) * g.height
    ensures forall x: nat, y: nat :: x < g.width && y < g.height ==>
              SymbolAt(g.width, x, y) < |s| && s[SymbolAt(g.width, x, y)] == g.cellTypes[Get(g, x, y)].symbol
    ensures forall y: nat :: y < g.height ==> LineEnd(g.width, y) < |s| && s[LineEnd(g.width, y)] == '\n'
  {
    var text := Terminate(Rows(g));
    PrintLayout(g, text);
    text
  }

  /** The character layout of the printed text, cell by cell and line by line. */
  lemma PrintLayout(g: Grid, text: string)
    requires Typed(g) && text == Terminate(Rows(g))
    ensures |text| == (g.width + 1) * g.height
    ensures forall x: nat, y: nat :: x < g.width && y < g.height ==>
              SymbolAt(g.width, x, y) < |text| && text[SymbolAt(g.width, x, y)] == g.cellTypes[Get(g, x, y)].symbol
    ensures forall y: nat :: y < g.height ==> LineEnd(g.width, y) < |text| && text[LineEnd(g.width, y)] == '\n'
  {
    var lines := Lines(Rows(g));
    FlattenLength(lines, g.width + 1);
    forall x: nat, y: nat | x < g.width && y < g.height
      ensures SymbolAt(g.width, x, y) < |text| && text[SymbolAt(g.width, x, y)] == g.cellTypes[Get(g, x, y)].symbol
    {
      FlattenAt(lines, g.width + 1, x, y);
    }
    forall y: nat | y < g.height
      ensures LineEnd(g.width, y) < |text| && text[LineEnd(g.width, y)] == '\n'
    {
      FlattenAt(lines, g.width + 1, g.width, y);
    }
  }

  /** Printing a grid shows, for every cell, the symbol of its type. */
  lemma PrintShowsSymbols(g: Grid, x: nat, y: nat)
    requires Typed(g) && x < g.width && y < g.height
    ensures |Rows(g)| == g.height && |Rows(g)[y]| == g.width
    ensures Rows(g)[y][x] == g.cellTypes[Get(g, x, y)].symbol
  {
  }

  /**
   * When all rows have the same length and every character is a registered
   * symbol, printing the loaded grid gives back the rows.
   */
  lemma LoadThenPrint(g: Grid, rows: seq<string>)
    requires forall y :: 0 <= y < |rows| ==> |rows[y]| == |rows[0]|
    requires forall y, x :: 0 <= y < |rows| && 0 <= x < |rows[y]| ==> HasSymbol(g.cellTypes, rows[y][x])
    ensures Rows(Load(g, rows)) == rows
    ensures Print(Load(g, rows)) == Terminate(rows)
  {
    var r := Load(g, rows);
    forall y | 0 <= y < |rows|
      ensures Rows(r)[y] == rows[y]
    {
      forall x | 0 <= x < |rows[y]|
        ensures Rows(r)[y][x] == rows[y][x]
      {
        assert LoadedCell(g.cellTypes, rows, x, y, Get(r, x, y));
      }
    }
  }

  // ---------------------------------------------------------------------------
  // Serialize and Deserialize
  // ---------------------------------------------------------------------------

  /** The payload `width height cell0 cell1 ...` as a token sequence. */
  function Serialize(g: Grid): (tokens: seq<nat>)
    ensures |tokens| == 2 + g.width * g.height
  {
    [g.width, g.height] + g.cells
  }

  /**
   * Read width and height, then that many cells, into a grid that keeps its
   * registry.  A payload too short to hold them is refused; tokens after the
   * cells are left unread.
   */
  function Deserialize(g: Grid, tokens: seq<nat>): (r: Option<Grid>)
    ensures r.Some? <==> |tokens| >= 2 && |tokens| - 2 >= tokens[0] * tokens[1]
    ensures r.Some? ==> r.value.cellTypes == g.cellTypes
  {
    if |tokens| < 2 || |tokens| - 2 < tokens[0] * tokens[1] then None
    else Some(WorldGrid(tokens[0], tokens[1], g.cellTypes, tokens[2..2 + tokens[0] * tokens[1]]))
  }

  /** Deserializing a serialized grid restores its size and cells, keeping the reader's registry. */
  lemma DeserializeSerialize(g: Grid, reader: Grid)
    ensures Deserialize(reader, Serialize(g)).Some?
    ensures var r := Deserialize(reader, Serialize(g)).value;
            r.width == g.width && r.height == g.height && r.cells == g.cells && r.cellTypes == reader.cellTypes
    ensures g.cellTypes == reader.cellTypes ==> Deserialize(reader, Serialize(g)) == Some(g)
  {
  }

  /** Serializing a deserialized payload gives back the tokens that were read. */
  lemma SerializeDeserialize(g: Grid, tokens: seq<nat>)
    requires |tokens| >= 2 && |tokens| - 2 >= tokens[0] * tokens[1]
    ensures Serialize(Deserialize(g, tokens).value) == tokens[..2 + tokens[0] * tokens[1]]
    ensures |tokens| == 2 + tokens[0] * tokens[1] ==> Serialize(Deserialize(g, tokens).value) == tokens
  {
  }
}

=== FILE: locations.dfy ===
/**
 * Where an entity is: on the grid at a position, inside an item, or held by
 * an agent.  Exactly one variant is active; switching kinds replaces the value.
 */
module Locations {
  import opened Positions

  datatype ItemId = ItemId(id: nat)
  datatype AgentId = AgentId(id: nat)

  datatype Location = At(pos: Position) | InItem(item: ItemId) | HeldBy(agent: AgentId) {

    predicate IsPosition() { At? }
    predicate IsItemId() { InItem? }
    predicate IsAgentId() { HeldBy? }

    /** The position; calling it on another variant is a contract violation. */
    function AsWorldPosition(): (p: Position)
      requires IsPosition()
      ensures At(p) == this
    {
      pos
    }

    /** The item number; calling it on another variant is a contract violation. */
    function AsItemId(): (n: nat)
      requires IsItemId()
      ensures InItem(ItemId(n)) == this
    {
      item.id
    }

    /** The agent number; calling it on another variant is a contract violation. */
    function AsAgentId(): (n: nat)
      requires IsAgentId()
      ensures HeldBy(AgentId(n)) == this
    {
      agent.id
    }
  }

  /** A default-constructed location: the default position. */
  const DefaultLocation := At(Origin)

  /** Exactly one of the three kind predicates holds. */
  lemma ExactlyOneKind(l: Location)
    ensures l.IsPosition() || l.IsItemId() || l.IsAgentId()
    ensures !(l.IsPosition() && l.IsItemId())
    ensures !(l.IsPosition() && l.IsAgentId())
    ensures !(l.IsItemId() && l.IsAgentId())
  {
  }

  /** Each constructor is read back by its matching accessor. */
  lemma ConstructThenRead(p: Position, n: nat)
    ensures At(p).IsPosition() && At(p).AsWorldPosition() == p
    ensures InItem(ItemId(n)).IsItemId() && InItem(ItemId(n)).AsItemId() == n
    ensures HeldBy(AgentId(n)).IsAgentId() && HeldBy(AgentId(n)).AsAgentId() == n
    ensures DefaultLocation.IsPosition() && DefaultLocation.AsWorldPosition() == Position(0.0, 0.0)
  {
  }
}

=== FILE: mazeworlds.dfy ===
/**
 * The maze world: a grid of floor and wall cells in which every agent may
 * stay still or step up, down, left or right.  A step succeeds when the target
 * lies on the grid and is not a wall; a failed step changes nothing.
 */
module MazeWorlds {
  import opened Wrappers
  import opened Positions
  import opened Locations
  import opened Grids
  import opened GridText
  import opened Entities
  import Worlds

  /** Action ids; 0 is "no action" and is never registered under a name. */
  const RemainStill: nat := 0
  const MoveUp: nat := 1
  const MoveDown: nat := 2
  const MoveLeft: nat := 3
  const MoveRight: nat := 4

  /** A maze world and the ids of its two cell types. */
  datatype Maze = Maze(world: Worlds.World, floorId: nat, wallId: nat)

  // ---------------------------------------------------------------------------
  // Configuring agents
  // ---------------------------------------------------------------------------

  predicate Unconfigured(a: Agent)
  {
    !HasAction(a, "up") && !HasAction(a, "down") && !HasAction(a, "left") && !HasAction(a, "right")
  }

  /** Register the four moves under ids 1 to 4. */
  function ConfigAgent(a: Agent): (r: Agent)
    requires Unconfigured(a)
    ensures GetActionID(r, "up") == MoveUp && GetActionID(r, "down") == MoveDown
    ensures GetActionID(r, "left") == MoveLeft && GetActionID(r, "right") == MoveRight
    ensures forall n :: HasAction(r, n) <==> HasAction(a, n) || n in {"up", "down", "left", "right"}
    ensures forall n :: HasAction(r, n) && !HasAction(a, n) ==> GetActionID(r, n) != RemainStill
    ensures forall n :: HasAction(a, n) ==> GetActionID(r, n) == GetActionID(a, n)
    ensures r.id == a.id && r.name == a.name && r.location == a.location
    ensures GetActionResult(r) == GetActionResult(a) && GetSymbol(r) == GetSymbol(a)
    ensures r.IsInterface() == a.IsInterface()
  {
    var up := AddAction(a, "up", MoveUp);
    var down := AddAction(up, "down", MoveDown);
    var left := AddAction(down, "left", MoveLeft);
    AddAction(left, "right", MoveRight)
  }

  /** The configuration hook: a name already registered trips the assertion in AddAction. */
  function ConfigHook(a: Agent): (r: Option<Agent>)
    ensures r.Some? <==> Unconfigured(a)
    ensures r.Some? ==> r.value == ConfigAgent(a)
  {
    if Unconfigured(a) then Some(ConfigAgent(a)) else None
  }

  lemma ConfigHookKeepsId()
    ensures Worlds.ConfigKeepsId(ConfigHook)
  {
  }

  // ---------------------------------------------------------------------------
  // Construction
  // ---------------------------------------------------------------------------

  const MazeRows: seq<string> := [
    "#######################",
    "# #            ##     #",
    "# #  #  ######    ### #",
    "# #  #  #     #  #  # #",
    "# #  #  #  #  #  #  # #",
    "#    #     #     #    #",
    "##################  # #",
    "#                    ##",
    "#                    ##",
    "#  ####################",
    "#######################"
  ]

  const FloorType := CellType("floor", "Floor that agents can walk on.", ' ')
  const WallType := CellType("wall", "Impenetrable wall.", '#')

  /** Register floor then wall after the reserved Unknown type, then load the fixed maze. */
  function NewMaze(): (m: Maze)
    ensures m.floorId == 1 && m.wallId == 2
    ensures m.world.grid.cellTypes == [UnknownType, FloorType, WallType]
    ensures m.world.grid.width == 23 && m.world.grid.height == 11
    ensures |m.world.agents| == 0 && |m.world.items| == 0 && !m.world.runOver
    ensures forall x: nat, y: nat :: x < 23 && y < 11 ==>
              LoadedCell(m.world.grid.cellTypes, MazeRows, x, y, Get(m.world.grid, x, y))
  {
    var w := Worlds.NewWorld();
    var (withFloor, floorId) := AddCellType(w.grid, FloorType.name, FloorType.desc, FloorType.symbol);
    var (withWall, wallId) := AddCellType(withFloor, WallType.name, WallType.desc, WallType.symbol);
    assert withWall.cellTypes == [UnknownType, FloorType, WallType];
    Maze(w.(grid := Load(withWall, MazeRows)), floorId, wallId)
  }

  /** In a grid registering exactly Unknown, floor and wall, ' ' loads as floor and '#' as wall. */
  lemma MazeSymbols(types: seq<CellType>, v: nat)
    requires types == [UnknownType, FloorType, WallType]
    ensures HasSymbol(types, ' ') && HasSymbol(types, '#')
    ensures LastWithSymbol(types, ' ', v) <==> v == 1
    ensures LastWithSymbol(types, '#', v) <==> v == 2
  {
    assert types[1].symbol == ' ' && types[2].symbol == '#';
  }

  /** Cell (1, 1), where the demonstration program places its interface agent, is floor. */
  lemma MazeStartIsFloor()
    ensures var g := NewMaze().world.grid; Get(g, 1, 1) == NewMaze().floorId
  {
  }

  // ---------------------------------------------------------------------------
  // Actions
  // ---------------------------------------------------------------------------

  /**
   * Where an action leads.  Ids past MoveRight match no case, so the target
   * keeps its default value, the origin.
   */
  function Target(current: Position, action: nat): (p: Position)
    ensures action == RemainStill ==> p == current
    ensures action == MoveUp ==> p == Position(current.x, current.y - 1.0)
    ensures action == MoveDown ==> p == Position(current.x, current.y + 1.0)
    ensures action == MoveLeft ==> p == Position(current.x - 1.0, current.y)
    ensures action == MoveRight ==> p == Position(current.x + 1.0, current.y)
    ensures action > MoveRight ==> p == Position(0.0, 0.0)
  {
    if action == RemainStill then current
    else if action == MoveUp then current.Up()
    else if action == MoveDown then current.Down()
    else if action == MoveLeft then current.Left()
    else if action == MoveRight then current.Right()
    else Origin
  }

  /** The agent may move onto the target: it is on the grid and not a wall. */
  predicate CanEnter(grid: Grid, wallId: nat, target: Position)
  {
    grid.IsValidPos(target) && CellAt(grid, target) != wallId
  }

  /**
   * Apply an action for an agent standing on a position (anything else trips
   * the assertion in AsWorldPosition).  Returns 1 after moving to an
   * enterable target and 0, changing nothing, otherwise.
   */
  function DoAction(grid: Grid, wallId: nat, agent: Agent, action: nat): (r: (Agent, int))
    requires agent.location.IsPosition()
    ensures var target := Target(agent.location.AsWorldPosition(), action);
            && (r.1 == 1 <==> CanEnter(grid, wallId, target))
            && (r.1 == 0 <==> !CanEnter(grid, wallId, target))
            && (r.1 == 0 ==> r.0 == agent)
            && (r.1 == 1 ==> r.0.location == At(target) && r.0 == agent.SetLocation(At(target)))
  {
    var target := Target(agent.location.AsWorldPosition(), action);
    if !grid.IsValidPos(target) then (agent, 0)
    else if CellAt(grid, target) == wallId then (agent, 0)
    else (agent.SetLocation(At(target)), 1)
  }

  /** Staying still succeeds exactly when the agent is on an enterable cell. */
  lemma RemainStillTargetsCurrentCell(grid: Grid, wallId: nat, agent: Agent)
    requires agent.location.IsPosition()
    ensures DoAction(grid, wallId, agent, RemainStill).0 == agent
    ensures DoAction(grid, wallId, agent, RemainStill).1 == 1 <==> CanEnter(grid, wallId, agent.location.pos)
  {
  }

  /** An unknown action id sends the agent towards the origin. */
  lemma UnknownActionTargetsOrigin(grid: Grid, wallId: nat, agent: Agent, action: nat)
    requires agent.location.IsPosition() && action > MoveRight
    ensures DoAction(grid, wallId, agent, action).1 == 1 <==> CanEnter(grid, wallId, Origin)
    ensures DoAction(grid, wallId, agent, action).1 == 1 ==> DoAction(grid, wallId, agent, action).0.location == At(Origin)
  {
  }

  /** The world rule: apply DoAction to agent i of the world, touching nothing else. */
  function Rule(wallId: nat): (rule: (Worlds.World, nat, nat) -> Option<(Worlds.World, int)>)
    ensures forall w: Worlds.World, i: nat, action: nat ::
              rule(w, i, action).Some? <==> i < |w.agents| && w.agents[i].location.IsPosition()
    ensures forall w: Worlds.World, i: nat, action: nat :: rule(w, i, action).Some? ==>
              var (acted, result) := rule(w, i, action).value;
              && acted.grid == w.grid && acted.items == w.items && acted.runOver == w.runOver
              && |acted.agents| == |w.agents|
              && (forall j :: 0 <= j < |w.agents| && j != i ==> acted.agents[j] == w.agents[j])
              && (acted.agents[i], result) == DoAction(w.grid, wallId, w.agents[i], action)
  {
    (w: Worlds.World, i: nat, action: nat) =>
      if i < |w.agents| && w.agents[i].location.IsPosition() then
        var (moved, result) := DoAction(w.grid, wallId, w.agents[i], action);
        Some((w.(agents := w.agents[i := moved]), result))
      else None
  }

  lemma RuleKeepsAgents(wallId: nat)
    ensures Worlds.KeepsAgents(Rule(wallId))
  {
  }

  // ---------------------------------------------------------------------------
  // Agents and rounds in the maze
  // ---------------------------------------------------------------------------

  /** Add an agent through the world's AddAgent, configured with the four moves. */
  function AddAgent(m: Maze, name: string, construct: (nat, string) -> Agent,
                    initialize: Agent -> (Agent, bool)): (r: Option<Maze>)
    requires construct(|m.world.agents|, name).id == |m.world.agents|
    requires Worlds.InitializeKeepsId(initialize)
    ensures r.Some? <==> Unconfigured(construct(|m.world.agents|, name))
    ensures r.Some? ==>
              && r.value.floorId == m.floorId && r.value.wallId == m.wallId
              && r.value.world.grid == m.world.grid
              && r.value.world.items == m.world.items && r.value.world.runOver == m.world.runOver
              && |r.value.world.agents| == |m.world.agents| + 1
              && r.value.world.agents[..|m.world.agents|] == m.world.agents
              && r.value.world.agents[|m.world.agents|].id == |m.world.agents|
              && r.value.world.agents[|m.world.agents|] ==
                 initialize(ConfigAgent(construct(|m.world.agents|, name))).0
  {
    ConfigHookKeepsId();
    match Worlds.AddAgent(m.world, name, construct, ConfigHook, initialize)
    case None => None
    case Some(w) => Some(m.(world := w))
  }

  /** A plain agent added to the maze can take exactly the four moves, none of them id 0. */
  lemma AddedAgentHasMoves(m: Maze, name: string)
    ensures var r := AddAgent(m, name, (id: nat, n: string) => NewAgent(id, n, false), Worlds.BaseInitialize);
            r.Some? &&
            var a := r.value.world.agents[|m.world.agents|];
            && a.id == |m.world.agents| && a.location == DefaultLocation
            && GetActionID(a, "up") == MoveUp && GetActionID(a, "down") == MoveDown
            && GetActionID(a, "left") == MoveLeft && GetActionID(a, "right") == MoveRight
            && (forall n :: HasAction(a, n) <==> n in {"up", "down", "left", "right"})
            && (forall n :: HasAction(a, n) ==> GetActionID(a, n) != RemainStill)
  {
  }

  predicate AllPositioned(w: Worlds.World)
  {
    forall i :: 0 <= i < |w.agents| ==> w.agents[i].location.IsPosition()
  }

  /**
   * The agent's choice depends only on the agent itself and the grid, not on
   * the other agents or the items: an agent that looks only at its own state
   * and the grid it is given, as opposed to one that queries the world.
   */
  ghost predicate LocalSelect(select: (Worlds.World, nat) -> nat)
  {
    forall w1: Worlds.World, w2: Worlds.World, i: nat {:trigger select(w1, i), select(w2, i)} ::
      i < |w1.agents| && i < |w2.agents| && w1.agents[i] == w2.agents[i] && w1.grid == w2.grid ==>
      select(w1, i) == select(w2, i)
  }

  /** Agent k's turn taken alone in world w0: select, apply the move, record the result. */
  function Step(w0: Worlds.World, wallId: nat, select: (Worlds.World, nat) -> nat, k: nat): Agent
    requires k < |w0.agents| && w0.agents[k].location.IsPosition()
  {
    var (moved, result) := DoAction(w0.grid, wallId, w0.agents[k], select(w0, k));
    SetActionResult(moved, result)
  }

  /** One round of the maze world. */
  function RunAgents(m: Maze, select: (Worlds.World, nat) -> nat): Option<Worlds.Round>
  {
    RuleKeepsAgents(m.wallId);
    Worlds.RunAgents(m.world, select, Rule(m.wallId))
  }

  /** The part of a round already done: agents before i have moved, the rest have not. */
  ghost predicate RoundPrefix(w0: Worlds.World, w: Worlds.World, i: nat, select: (Worlds.World, nat) -> nat, wallId: nat)
  {
    && AllPositioned(w0)
    && |w.agents| == |w0.agents| && i <= |w.agents|
    && w.grid == w0.grid && w.items == w0.items && w.runOver == w0.runOver
    && (forall k :: 0 <= k < i ==> w.agents[k] == Step(w0, wallId, select, k))
    && (forall k :: i <= k < |w.agents| ==> w.agents[k] == w0.agents[k])
  }

  /** The turn of agent i moves it on its own and extends the finished part by one. */
  lemma MazeTurn(w0: Worlds.World, w: Worlds.World, i: nat, select: (Worlds.World, nat) -> nat, wallId: nat)
    requires Worlds.KeepsAgents(Rule(wallId)) && LocalSelect(select)
    requires RoundPrefix(w0, w, i, select, wallId) && i < |w.agents|
    ensures var t := Worlds.TakeTurn(w, i, select, Rule(wallId));
            && t.Some?
            && t.value.1 == Worlds.Turn(i, select(w0, i), DoAction(w0.grid, wallId, w0.agents[i], select(w0, i)).1)
            && RoundPrefix(w0, t.value.0, i + 1, select, wallId)
  {
    assert select(w, i) == select(w0, i);
  }

  /** The turns are those of agents i, i + 1, ..., each moving on its own in w0. */
  ghost predicate OwnTurns(w0: Worlds.World, i: nat, select: (Worlds.World, nat) -> nat, wallId: nat,
                           turns: seq<Worlds.Turn>)
    requires AllPositioned(w0)
  {
    && i + |turns| <= |w0.agents|
    && forall k :: 0 <= k < |turns| ==>
         turns[k] == Worlds.Turn(i + k, select(w0, i + k),
                                 DoAction(w0.grid, wallId, w0.agents[i + k], select(w0, i + k)).1)
  }

  /** Agent i's own turn followed by the own turns from agent i + 1. */
  lemma OwnTurnsCons(w0: Worlds.World, i: nat, select: (Worlds.World, nat) -> nat, wallId: nat,
                     turn: Worlds.Turn, rest: seq<Worlds.Turn>)
    requires AllPositioned(w0) && i < |w0.agents|
    requires turn == Worlds.Turn(i, select(w0, i), DoAction(w0.grid, wallId, w0.agents[i], select(w0, i)).1)
    requires OwnTurns(w0, i + 1, select, wallId, rest)
    ensures OwnTurns(w0, i, select, wallId, [turn] + rest)
  {
    forall k | 1 <= k < |rest| + 1
      ensures ([turn] + rest)[k] == Worlds.Turn(i + k, select(w0, i + k),
                                                DoAction(w0.grid, wallId, w0.agents[i + k], select(w0, i + k)).1)
    {
      assert ([turn] + rest)[k] == rest[k - 1];
    }
  }

  /** The rest of a round, from agent i on. */
  lemma {:induction false} RoundFrom(w0: Worlds.World, w: Worlds.World, i: nat,
                                     select: (Worlds.World, nat) -> nat, wallId: nat)
    requires Worlds.KeepsAgents(Rule(wallId)) && LocalSelect(select)
    requires RoundPrefix(w0, w, i, select, wallId)
    ensures var r := Worlds.RunAgentsFrom(w, i, select, Rule(wallId));
            && r.Some?
            && RoundPrefix(w0, r.value.world, |w0.agents|, select, wallId)
            && OwnTurns(w0, i, select, wallId, r.value.turns)
    decreases |w.agents| - i
  {
    if i < |w.agents| {
      MazeTurn(w0, w, i, select, wallId);
      var (next, turn) := Worlds.TakeTurn(w, i, select, Rule(wallId)).value;
      RoundFrom(w0, next, i + 1, select, wallId);
      var rest := Worlds.RunAgentsFrom(next, i + 1, select, Rule(wallId)).value;
      Worlds.RunAgentsFromStep(w, i, select, Rule(wallId), next, turn);
      OwnTurnsCons(w0, i, select, wallId, turn, rest.turns);
      assert Worlds.RunAgentsFrom(w, i, select, Rule(wallId)).value.world == rest.world;
      assert Worlds.RunAgentsFrom(w, i, select, Rule(wallId)).value.turns == [turn] + rest.turns;
    }
  }

  /**
   * With agents whose choice depends only on themselves and the grid, a maze
   * round is the same as moving every agent on its own: the rule changes only
   * the acting agent and never the grid, so no agent sees another's move.
   */
  lemma RoundMovesEachAgent(m: Maze, select: (Worlds.World, nat) -> nat)
    requires AllPositioned(m.world) && LocalSelect(select)
    ensures var r := RunAgents(m, select);
            && r.Some?
            && r.value.world.grid == m.world.grid && r.value.world.items == m.world.items
            && r.value.world.runOver == m.world.runOver
            && |r.value.world.agents| == |m.world.agents|
            && (forall k :: 0 <= k < |m.world.agents| ==>
                  r.value.world.agents[k] == Step(m.world, m.wallId, select, k))
            && (forall k :: 0 <= k < |m.world.agents| ==>
                  r.value.turns[k] == Worlds.Turn(k, select(m.world, k),
                                                  DoAction(m.world.grid, m.wallId, m.world.agents[k], select(m.world, k)).1))
  {
    RuleKeepsAgents(m.wallId);
    RoundFrom(m.world, m.world, 0, select, m.wallId);
  }

  /** Every agent stands on a grid cell it could enter. */
  ghost predicate AgentsOnFloor(w: Worlds.World, wallId: nat)
  {
    forall i :: 0 <= i < |w.agents| ==>
      w.agents[i].location.IsPosition() && CanEnter(w.grid, wallId, w.agents[i].location.pos)
  }

  /** The recorded result is 0 or 1, and 0 means the agent did not move. */
  predicate MovedOrStayed(before: Agent, after: Agent)
  {
    && (GetActionResult(after) == 0 || GetActionResult(after) == 1)
    && (GetActionResult(after) == 0 ==> after.location == before.location)
  }

  /** The part of a round already done, as far as standing on the floor goes. */
  ghost predicate FloorPrefix(w0: Worlds.World, w: Worlds.World, i: nat, wallId: nat)
  {
    && |w.agents| == |w0.agents| && i <= |w.agents| && w.grid == w0.grid
    && AgentsOnFloor(w, wallId)
    && (forall k :: 0 <= k < i ==> MovedOrStayed(w0.agents[k], w.agents[k]))
    && (forall k :: i <= k < |w.agents| ==> w.agents[k] == w0.agents[k])
  }

  /** Agent i's turn, whatever it selects, keeps every agent on the floor. */
  lemma FloorTurn(w0: Worlds.World, w: Worlds.World, i: nat, select: (Worlds.World, nat) -> nat, wallId: nat)
    requires Worlds.KeepsAgents(Rule(wallId))
    requires FloorPrefix(w0, w, i, wallId) && i < |w.agents|
    ensures var t := Worlds.TakeTurn(w, i, select, Rule(wallId));
            t.Some? && FloorPrefix(w0, t.value.0, i + 1, wallId)
  {
    var action := select(w, i);
    var (moved, result) := DoAction(w.grid, wallId, w.agents[i], action);
    var acted := w.(agents := w.agents[i := moved]);
    assert Rule(wallId)(w, i, action) == Some((acted, result));
    var next := Worlds.TakeTurn(w, i, select, Rule(wallId)).value.0;
    assert next.agents[i].location == moved.location;
  }

  /** The rest of a round from agent i on keeps every agent on the floor. */
  lemma {:induction false} FloorFrom(w0: Worlds.World, w: Worlds.World, i: nat,
                                     select: (Worlds.World, nat) -> nat, wallId: nat)
    requires Worlds.KeepsAgents(Rule(wallId))
    requires FloorPrefix(w0, w, i, wallId)
    ensures var r := Worlds.RunAgentsFrom(w, i, select, Rule(wallId));
            r.Some? && FloorPrefix(w0, r.value.world, |w0.agents|, wallId)
    decreases |w.agents| - i
  {
    if i < |w.agents| {
      FloorTurn(w0, w, i, select, wallId);
      var (next, turn) := Worlds.TakeTurn(w, i, select, Rule(wallId)).value;
      FloorFrom(w0, next, i + 1, select, wallId);
    }
  }

  /**
   * Whatever the agents select, even by querying the world, a round keeps
   * every agent on enterable cells; each result is 0 or 1, and an agent whose
   * result is 0 has not moved.
   */
  lemma RoundKeepsAgentsOnFloor(m: Maze, select: (Worlds.World, nat) -> nat)
    requires AgentsOnFloor(m.world, m.wallId)
    ensures var r := RunAgents(m, select);
            && r.Some?
            && AgentsOnFloor(r.value.world, m.wallId)
            && |r.value.world.agents| == |m.world.agents|
            && (forall k :: 0 <= k < |m.world.agents| ==> MovedOrStayed(m.world.agents[k], r.value.world.agents[k]))
  {
    RuleKeepsAgents(m.wallId);
    FloorFrom(m.world, m.world, 0, select, m.wallId);
  }

  /**
   * A 3-by-1 grid with types Unknown, floor ' ' and wall '#' loaded from "# #"
   * holds wall, floor, wall; an agent at (1, 0) moving left is refused and stays.
   */
  lemma WallBlocksMove()
    ensures var (withFloor, floorId) := AddCellType(NewGrid(3, 1, 0), "floor", "", ' ');
            var (withWall, wallId) := AddCellType(withFloor, "wall", "", '#');
            var g := Load(withWall, ["# #"]);
            var agent: Agent := NewAgent(0, "A", false).SetLocation(At(Position(1.0, 0.0)));
            && g.cells == [wallId, floorId, wallId]
            && DoAction(g, wallId, agent, MoveLeft) == (agent, 0)
  {
  }
}

=== FILE: positions.dfy ===
/**
 * Coordinates in a 2D world.  The source stores doubles; here coordinates are
 * exact reals.  Rows grow downward: `Down` increases y, `Up` decreases it.
 */
module Positions {

  datatype Ordering = Less | Equal | Greater

  datatype Position = Position(x: real, y: real) {

    /** Cell column: truncation of a non-negative x. */
    function CellX(): (c: nat)
      requires x >= 0.0
      ensures c as real <= x < c as real + 1.0
    {
      x.Floor
    }

    /** Cell row: truncation of a non-negative y. */
    function CellY(): (c: nat)
      requires y >= 0.0
      ensures c as real <= y < c as real + 1.0
    {
      y.Floor
    }

    /** The position translated by (dx, dy). */
    function GetOffset(dx: real, dy: real): (p: Position)
      ensures p.x - x == dx && p.y - y == dy
    {
      Position(x + dx, y + dy)
    }

    /** One row up: rows grow downward, so y decreases. */
    function Up(): (p: Position)
      ensures p.x == x && p.y == y - 1.0
    {
      GetOffset(0.0, -1.0)
    }

    /** One row down. */
    function Down(): (p: Position)
      ensures p.x == x && p.y == y + 1.0
    {
      GetOffset(0.0, 1.0)
    }

    /** One column left. */
    function Left(): (p: Position)
      ensures p.x == x - 1.0 && p.y == y
    {
      GetOffset(-1.0, 0.0)
    }

    /** One column right. */
    function Right(): (p: Position)
      ensures p.x == x + 1.0 && p.y == y
    {
      GetOffset(1.0, 0.0)
    }
  }

  /** The default-constructed position. */
  const Origin := Position(0.0, 0.0)

  /** The constructor taking two integral values. */
  function FromInts(x: int, y: int): (p: Position)
    ensures p.x == x as real && p.y == y as real
    ensures x >= 0 ==> p.CellX() == x
    ensures y >= 0 ==> p.CellY() == y
    ensures p == Origin <==> x == 0 && y == 0
  {
    Position(x as real, y as real)
  }

  /** The defaulted three-way comparison: lexicographic on (x, y). */
  function Compare(p: Position, q: Position): (o: Ordering)
    ensures o == Equal <==> p == q
    ensures o == Less <==> p.x < q.x || (p.x == q.x && p.y < q.y)
    ensures o == Greater <==> p.x > q.x || (p.x == q.x && p.y > q.y)
  {
    if p.x < q.x then Less
    else if p.x > q.x then Greater
    else if p.y < q.y then Less
    else if p.y > q.y then Greater
    else Equal
  }

  function Flip(o: Ordering): Ordering
  {
    match o
    case Less => Greater
    case Equal => Equal
    case Greater => Less
  }

  /** Comparison is antisymmetric and transitive, hence a total order. */
  lemma CompareIsTotalOrder(p: Position, q: Position, r: Position)
    ensures Compare(q, p) == Flip(Compare(p, q))
    ensures Compare(p, q) != Greater && Compare(q, r) != Greater ==> Compare(p, r) != Greater
    ensures Compare(p, q) == Less && Compare(q, r) != Greater ==> Compare(p, r) == Less
  {
  }

  /** Each unit step moves exactly one coordinate by one, and opposite steps cancel. */
  lemma NeighboursAreUnitSteps(p: Position)
    ensures p.Up() == Position(p.x, p.y - 1.0) && p.Down() == Position(p.x, p.y + 1.0)
    ensures p.Left() == Position(p.x - 1.0, p.y) && p.Right() == Position(p.x + 1.0, p.y)
    ensures p.Up().Down() == p && p.Down().Up() == p
    ensures p.Left().Right() == p && p.Right().Left() == p
    ensures p.Up() != p && p.Down() != p && p.Left() != p && p.Right() != p
  {
  }

  /** Offsets compose additively; the zero offset is the identity. */
  lemma OffsetsCompose(p: Position, dx1: real, dy1: real, dx2: real, dy2: real)
    ensures p.GetOffset(0.0, 0.0) == p
    ensures p.GetOffset(dx1, dy1).GetOffset(dx2, dy2) == p.GetOffset(dx1 + dx2, dy1 + dy2)
  {
  }
}

=== FILE: worlds.dfy ===
/**
 * The world's turn engine.  A world owns one grid and its item and agent
 * collections.  World-specific behaviour (configuring a new agent, applying
 * an action, the end-of-round update) and agent-specific behaviour
 * (constructing, initializing, selecting an action) are passed in as
 * functions.  A hook returns None where an assertion inside it would fail,
 * and the engine then stops with None.  An agent selects its action from the
 * current world (its grid and, through the world's queries, the other agents
 * and items) and its own index in the agent collection.
 */
module Worlds {
  import opened Wrappers
  import opened Grids
  import opened Entities

  datatype World = World(grid: Grid, items: seq<Item>, agents: seq<Agent>, runOver: bool)

  /** A default world: an empty grid, no items, no agents. */
  function NewWorld(): (w: World)
    ensures w.grid == EmptyGrid() && |w.items| == 0 && |w.agents| == 0 && !w.runOver
  {
    World(EmptyGrid(), [], [], false)
  }

  function GetNumItems(w: World): nat
  {
    |w.items|
  }

  /** The agent count, which is also the id AddAgent hands out next. */
  function GetNumAgents(w: World): (n: nat)
    ensures n == |w.agents|
    ensures DenseAgentIds(w) ==> forall i :: 0 <= i < |w.agents| ==> w.agents[i].id < n
  {
    |w.agents|
  }

  /** Every agent's id is its position in the agent collection. */
  predicate DenseAgentIds(w: World)
  {
    forall i :: 0 <= i < |w.agents| ==> w.agents[i].id == i
  }

  /** Every item's id is its index in the collection. */
  predicate DenseItemIds(w: World)
  {
    forall i :: 0 <= i < |w.items| ==> w.items[i].id == i
  }

  /** The item stored under an id; an id past the collection is a contract violation. */
  function GetItem(w: World, id: nat): (it: Item)
    requires id < |w.items|
    ensures it in w.items
    ensures DenseItemIds(w) ==> it.id == id
  {
    w.items[id]
  }

  /** The agent stored under an id; an id past the collection is a contract violation. */
  function GetAgent(w: World, id: nat): (a: Agent)
    requires id < |w.agents|
    ensures a in w.agents
    ensures DenseAgentIds(w) ==> a.id == id
  {
    w.agents[id]
  }

  // ---------------------------------------------------------------------------
  // Adding agents
  // ---------------------------------------------------------------------------

  ghost predicate ConfigKeepsId(config: Agent -> Option<Agent>)
  {
    forall a: Agent :: config(a).Some? ==> config(a).value.id == a.id
  }

  ghost predicate InitializeKeepsId(initialize: Agent -> (Agent, bool))
  {
    forall a: Agent :: initialize(a).0.id == a.id
  }

  /** The base world's configuration step does nothing. */
  function BaseConfig(a: Agent): Option<Agent>
  {
    Some(a)
  }

  /** The base agent's initialization does nothing and reports success. */
  function BaseInitialize(a: Agent): (Agent, bool)
  {
    (a, true)
  }

  /**
   * Build an agent whose id is the current agent count, let the world
   * configure it, initialize it, and append it, whether or not the
   * initialization reported success.
   */
  function AddAgent(w: World, name: string, construct: (nat, string) -> Agent,
                    config: Agent -> Option<Agent>, initialize: Agent -> (Agent, bool)): (r: Option<World>)
    requires construct(|w.agents|, name).id == |w.agents|
    requires ConfigKeepsId(config) && InitializeKeepsId(initialize)
    ensures r.Some? <==> config(construct(|w.agents|, name)).Some?
    ensures r.Some? ==>
              && |r.value.agents| == |w.agents| + 1
              && r.value.agents[..|w.agents|] == w.agents
              && r.value.agents[|w.agents|].id == |w.agents|
              && r.value.grid == w.grid && r.value.items == w.items && r.value.runOver == w.runOver
    ensures r.Some? ==> r.value.agents[|w.agents|] == initialize(config(construct(|w.agents|, name)).value).0
  {
    var agent := construct(|w.agents|, name);
    match config(agent)
    case None => None
    case Some(configured) =>
      var (initialized, _) := initialize(configured);
      Some(w.(agents := w.agents + [initialized]))
  }

  /** With AddAgent as the only way in, every agent's id is its index. */
  lemma AddAgentKeepsDenseIds(w: World, name: string, construct: (nat, string) -> Agent,
                              config: Agent -> Option<Agent>, initialize: Agent -> (Agent, bool))
    requires DenseAgentIds(w)
    requires construct(|w.agents|, name).id == |w.agents|
    requires ConfigKeepsId(config) && InitializeKeepsId(initialize)
    ensures var r := AddAgent(w, name, construct, config, initialize);
            r.Some? ==> DenseAgentIds(r.value) && GetNumAgents(r.value) == GetNumAgents(w) + 1
  {
  }

  /** Two agents added to a new world, "A" then "B", get ids 0 and 1. */
  lemma AddTwoAgents()
    ensures var construct := (id: nat, name: string) => NewAgent(id, name, false);
            var w1 := AddAgent(NewWorld(), "A", construct, BaseConfig, BaseInitialize);
            w1.Some? &&
            var w2 := AddAgent(w1.value, "B", construct, BaseConfig, BaseInitialize);
            w2.Some? && |w2.value.agents| == 2 &&
            w2.value.agents[0].id == 0 && w2.value.agents[0].name == "A" &&
            w2.value.agents[1].id == 1 && w2.value.agents[1].name == "B"
  {
  }

  // ---------------------------------------------------------------------------
  // Rounds
  // ---------------------------------------------------------------------------

  /** One agent's turn: whose it was, the action it chose, and the result recorded. */
  datatype Turn = Turn(agent: nat, action: nat, result: int)

  /**
   * The world after a round, the turns taken in order, and the worlds the
   * turns saw: `worlds[k]` is the world before turn k, the last one the world
   * after the final turn.
   */
  datatype Round = Round(world: World, turns: seq<Turn>, worlds: seq<World>)
  {
    /** The world turn k started from. */
    function Before(k: nat): World
      requires k < |worlds|
    {
      worlds[k]
    }
  }

  /**
   * The round is a chain of turns: it starts from w, ends at its final world,
   * and turn k is agent i + k's TakeTurn on the world the turn before left.
   */
  ghost predicate TurnChain(w: World, i: nat, select: (World, nat) -> nat,
                            doAction: (World, nat, nat) -> Option<(World, int)>, r: Round)
    requires KeepsAgents(doAction)
  {
    && |r.worlds| == |r.turns| + 1 && r.worlds[0] == w && r.worlds[|r.turns|] == r.world
    && forall k {:trigger r.Before(k)} :: 0 <= k < |r.turns| ==>
         i + k < |r.Before(k).agents| &&
         TakeTurn(r.Before(k), i + k, select, doAction) == Some((r.worlds[k + 1], r.turns[k]))
  }

  /** A world rule that neither adds, removes nor renumbers agents. */
  ghost predicate KeepsAgents(doAction: (World, nat, nat) -> Option<(World, int)>)
  {
    forall w: World, i: nat, action: nat :: i < |w.agents| && doAction(w, i, action).Some? ==>
      && |doAction(w, i, action).value.0.agents| == |w.agents|
      && forall j :: 0 <= j < |w.agents| ==> doAction(w, i, action).value.0.agents[j].id == w.agents[j].id
  }

  /**
   * Agent i's turn: it selects an action from the current world, the world
   * applies it, and the agent records the result.
   */
  function TakeTurn(w: World, i: nat, select: (World, nat) -> nat,
                    doAction: (World, nat, nat) -> Option<(World, int)>): (r: Option<(World, Turn)>)
    requires i < |w.agents| && KeepsAgents(doAction)
    ensures r.Some? <==> doAction(w, i, select(w, i)).Some?
    ensures r.Some? ==>
              var (next, turn) := r.value;
              var (acted, result) := doAction(w, i, select(w, i)).value;
              && turn == Turn(i, select(w, i), result)
              && |next.agents| == |w.agents|
              && (forall j :: 0 <= j < |w.agents| ==> next.agents[j].id == w.agents[j].id)
              && GetActionResult(next.agents[i]) == result
              && next.agents[i].location == acted.agents[i].location
              && next.agents[i] == SetActionResult(acted.agents[i], result)
              && (forall j :: 0 <= j < |w.agents| && j != i ==> next.agents[j] == acted.agents[j])
              && next.grid == acted.grid && next.items == acted.items && next.runOver == acted.runOver
  {
    var action := select(w, i);
    match doAction(w, i, action)
    case None => None
    case Some((acted, result)) =>
      Some((acted.(agents := acted.agents[i := SetActionResult(acted.agents[i], result)]), Turn(i, action, result)))
  }

  /** Turns of agents i, i+1, ... in collection order. */
  function RunAgentsFrom(w: World, i: nat, select: (World, nat) -> nat,
                         doAction: (World, nat, nat) -> Option<(World, int)>): (r: Option<Round>)
    requires i <= |w.agents| && KeepsAgents(doAction)
    decreases |w.agents| - i
    ensures r.Some? ==>
              && |r.value.world.agents| == |w.agents|
              && (forall j :: 0 <= j < |w.agents| ==> r.value.world.agents[j].id == w.agents[j].id)
              && |r.value.turns| == |w.agents| - i
              && (forall k :: 0 <= k < |r.value.turns| ==> r.value.turns[k].agent == i + k)
    ensures r.Some? ==> TurnChain(w, i, select, doAction, r.value)
    ensures i == |w.agents| ==> r == Some(Round(w, [], [w]))
    ensures i < |w.agents| && TakeTurn(w, i, select, doAction).None? ==> r.None?
  {
    if i == |w.agents| then Some(Round(w, [], [w]))
    else
      match TakeTurn(w, i, select, doAction)
      case None => None
      case Some((next, turn)) =>
        match RunAgentsFrom(next, i + 1, select, doAction)
        case None => None
        case Some(rest) =>
          ChainCons(w, i, select, doAction, next, turn, rest);
          ShapeCons(w, i, next, turn, rest);
          Some(Round(rest.world, [turn] + rest.turns, [w] + rest.worlds))
  }

  /** A round from agent i is agent i's turn followed by the round from agent i + 1. */
  lemma RunAgentsFromStep(w: World, i: nat, select: (World, nat) -> nat,
                          doAction: (World, nat, nat) -> Option<(World, int)>, next: World, turn: Turn)
    requires KeepsAgents(doAction) && i < |w.agents|
    requires TakeTurn(w, i, select, doAction) == Some((next, turn))
    ensures var rest := RunAgentsFrom(next, i + 1, select, doAction);
            && (RunAgentsFrom(w, i, select, doAction).Some? <==> rest.Some?)
            && (rest.Some? ==>
                  RunAgentsFrom(w, i, select, doAction)
                  == Some(Round(rest.value.world, [turn] + rest.value.turns, [w] + rest.value.worlds)))
  {
  }

  /** A world rule that answers for every agent that exists. */
  ghost predicate NeverFails(doAction: (World, nat, nat) -> Option<(World, int)>)
  {
    forall w: World, i: nat, action: nat :: i < |w.agents| ==> doAction(w, i, action).Some?
  }

  /** With a rule that never fails, every turn completes and so does the round. */
  lemma {:induction false} RunAgentsFromSucceeds(w: World, i: nat, select: (World, nat) -> nat,
                                                 doAction: (World, nat, nat) -> Option<(World, int)>)
    requires i <= |w.agents| && KeepsAgents(doAction) && NeverFails(doAction)
    ensures RunAgentsFrom(w, i, select, doAction).Some?
    decreases |w.agents| - i
  {
    if i < |w.agents| {
      var (next, turn) := TakeTurn(w, i, select, doAction).value;
      RunAgentsFromSucceeds(next, i + 1, select, doAction);
      RunAgentsFromStep(w, i, select, doAction, next, turn);
    }
  }

  /**
   * The round from agent i keeps the agents and numbers its turns i, i+1, ...
   * when agent i's turn does and the round from agent i + 1 does.
   */
  lemma ShapeCons(w: World, i: nat, next: World, turn: Turn, rest: Round)
    requires i < |w.agents| && turn.agent == i
    requires |next.agents| == |w.agents| && forall j :: 0 <= j < |w.agents| ==> next.agents[j].id == w.agents[j].id
    requires && |rest.world.agents| == |next.agents|
             && (forall j :: 0 <= j < |next.agents| ==> rest.world.agents[j].id == next.agents[j].id)
             && |rest.turns| == |next.agents| - (i + 1)
             && (forall k :: 0 <= k < |rest.turns| ==> rest.turns[k].agent == i + 1 + k)
    ensures var r := Round(rest.world, [turn] + rest.turns, [w] + rest.worlds);
            && |r.world.agents| == |w.agents|
            && (forall j :: 0 <= j < |w.agents| ==> r.world.agents[j].id == w.agents[j].id)
            && |r.turns| == |w.agents| - i
            && (forall k :: 0 <= k < |r.turns| ==> r.turns[k].agent == i + k)
  {
    var turns := [turn] + rest.turns;
    forall k | 0 <= k < |turns|
      ensures turns[k].agent == i + k
    {
      if k > 0 {
        assert turns[k] == rest.turns[k - 1];
      }
    }
  }

  /** A turn followed by a chain from the next agent is a chain from this one. */
  lemma ChainCons(w: World, i: nat, select: (World, nat) -> nat,
                  doAction: (World, nat, nat) -> Option<(World, int)>, next: World, turn: Turn, rest: Round)
    requires KeepsAgents(doAction) && i < |w.agents|
    requires TakeTurn(w, i, select, doAction) == Some((next, turn))
    requires TurnChain(next, i + 1, select, doAction, rest)
    ensures TurnChain(w, i, select, doAction, Round(rest.world, [turn] + rest.turns, [w] + rest.worlds))
  {
    var r := Round(rest.world, [turn] + rest.turns, [w] + rest.worlds);
    forall k | 0 <= k < |r.turns|
      ensures i + k < |r.Before(k).agents|
      ensures TakeTurn(r.Before(k), i + k, select, doAction) == Some((r.worlds[k + 1], r.turns[k]))
    {
      if k > 0 {
        assert r.Before(k) == rest.Before(k - 1) && r.worlds[k + 1] == rest.worlds[k];
        assert r.turns[k] == rest.turns[k - 1] && i + k == (i + 1) + (k - 1);
      }
    }
  }

  /** One round: every agent in collection order takes one turn. */
  function RunAgents(w: World, select: (World, nat) -> nat,
                     doAction: (World, nat, nat) -> Option<(World, int)>): (r: Option<Round>)
    requires KeepsAgents(doAction)
    ensures r.Some? ==> GetNumAgents(r.value.world) == GetNumAgents(w)
    ensures r.Some? ==> DenseAgentIds(w) ==> DenseAgentIds(r.value.world)
    ensures r.Some? ==> |r.value.turns| == |w.agents| && forall k :: 0 <= k < |w.agents| ==> r.value.turns[k].agent == k
    ensures r.Some? ==> TurnChain(w, 0, select, doAction, r.value)
    ensures |w.agents| == 0 ==> r == Some(Round(w, [], [w]))
    ensures |w.agents| > 0 && TakeTurn(w, 0, select, doAction).None? ==> r.None?
  {
    RunAgentsFrom(w, 0, select, doAction)
  }

  /** With a rule that never fails, a round always completes. */
  lemma RunAgentsSucceeds(w: World, select: (World, nat) -> nat, doAction: (World, nat, nat) -> Option<(World, int)>)
    requires KeepsAgents(doAction) && NeverFails(doAction)
    ensures RunAgents(w, select, doAction).Some?
  {
    RunAgentsFromSucceeds(w, 0, select, doAction);
  }

  /** One pass of the loop body: a round of turns, then the world update. */
  function RoundThenUpdate(w: World, select: (World, nat) -> nat,
                           doAction: (World, nat, nat) -> Option<(World, int)>, update: World -> World): (r: Option<World>)
    requires KeepsAgents(doAction)
  {
    match RunAgents(w, select, doAction)
    case None => None
    case Some(round) => Some(update(round.world))
  }

  /** The loop body as a step function on worlds. */
  function LoopBody(select: (World, nat) -> nat,
                    doAction: (World, nat, nat) -> Option<(World, int)>, update: World -> World): World -> Option<World>
    requires KeepsAgents(doAction)
  {
    v => RoundThenUpdate(v, select, doAction, update)
  }

  /**
   * The shape of the run loop for any body: while the stop flag is clear,
   * apply the body, at most `fuel` times; returns the final world and the
   * passes made.
   */
  function Loop(w: World, fuel: nat, body: World -> Option<World>): (r: Option<(World, nat)>)
    decreases fuel
    ensures r.Some? ==> r.value.1 <= fuel && (r.value.1 < fuel ==> r.value.0.runOver)
    ensures r.Some? && r.value.1 == 0 ==> r.value.0 == w
    ensures w.runOver || fuel == 0 ==> r == Some((w, 0))
    ensures !w.runOver && fuel > 0 && body(w).None? ==> r.None?
  {
    if w.runOver || fuel == 0 then Some((w, 0))
    else
      match body(w)
      case None => None
      case Some(next) =>
        match Loop(next, fuel - 1, body)
        case None => None
        case Some((final, passes)) => Some((final, passes + 1))
  }

  /** A body that never sets a clear stop flag makes the loop use all its fuel. */
  lemma {:induction false} LoopWithoutStop(w: World, fuel: nat, body: World -> Option<World>)
    requires !w.runOver
    requires forall v: World :: !v.runOver && body(v).Some? ==> !body(v).value.runOver
    ensures var r := Loop(w, fuel, body);
            r.Some? ==> r.value.1 == fuel && !r.value.0.runOver
    decreases fuel
  {
    if fuel > 0 && body(w).Some? {
      LoopWithoutStop(body(w).value, fuel - 1, body);
    }
  }

  /** A pass of the loop on a world whose flag is clear: the body, then the loop with one less fuel. */
  lemma LoopStep(w: World, fuel: nat, body: World -> Option<World>)
    requires !w.runOver && fuel > 0
    ensures Loop(w, fuel, body) ==
              if body(w).None? then None
              else
                var rest := Loop(body(w).value, fuel - 1, body);
                if rest.None? then None else Some((rest.value.0, rest.value.1 + 1))
  {
  }

  /** A body that never fails makes the loop complete. */
  lemma {:induction false} LoopSucceeds(w: World, fuel: nat, body: World -> Option<World>)
    requires forall v: World :: body(v).Some?
    ensures Loop(w, fuel, body).Some?
    decreases fuel
  {
    if !w.runOver && fuel > 0 {
      LoopSucceeds(body(w).value, fuel - 1, body);
      LoopStep(w, fuel, body);
    }
  }

  /** The round loop, bounded by `fuel` rounds; returns the final world and the rounds run. */
  function RunLoop(w: World, fuel: nat, select: (World, nat) -> nat,
                   doAction: (World, nat, nat) -> Option<(World, int)>, update: World -> World): (r: Option<(World, nat)>)
    requires KeepsAgents(doAction)
    ensures r.Some? ==> r.value.1 <= fuel && (r.value.1 < fuel ==> r.value.0.runOver)
    ensures r.Some? && r.value.1 == 0 ==> r.value.0 == w
    ensures w.runOver || fuel == 0 ==> r == Some((w, 0))
  {
    Loop(w, fuel, LoopBody(select, doAction, update))
  }

  /** With a rule that never fails, the run loop completes. */
  lemma RunLoopSucceeds(w: World, fuel: nat, select: (World, nat) -> nat,
                        doAction: (World, nat, nat) -> Option<(World, int)>, update: World -> World)
    requires KeepsAgents(doAction) && NeverFails(doAction)
    ensures RunLoop(w, fuel, select, doAction, update).Some?
  {
    var body := LoopBody(select, doAction, update);
    forall v: World
      ensures body(v).Some?
    {
      RunAgentsSucceeds(v, select, doAction);
    }
    LoopSucceeds(w, fuel, body);
  }

  /** Run: clear the stop flag, then alternate agent rounds and world updates while it stays clear. */
  function Run(w: World, fuel: nat, select: (World, nat) -> nat,
               doAction: (World, nat, nat) -> Option<(World, int)>, update: World -> World): (r: Option<(World, nat)>)
    requires KeepsAgents(doAction)
    ensures r.Some? ==> r.value.1 <= fuel && (r.value.1 < fuel ==> r.value.0.runOver)
    ensures r.Some? && fuel > 0 ==> r.value.1 > 0
  {
    RunLoop(w.(runOver := false), fuel, select, doAction, update)
  }

  /** A single round of Run: one RunAgents on the cleared world, then one update. */
  lemma RunOneRound(w: World, select: (World, nat) -> nat,
                    doAction: (World, nat, nat) -> Option<(World, int)>, update: World -> World)
    requires KeepsAgents(doAction)
    ensures var round := RunAgents(w.(runOver := false), select, doAction);
            Run(w, 1, select, doAction, update) ==
              (if round.None? then None else Some((update(round.value.world), 1)))
  {
  }

  /**
   * Every counted round of the loop, at any fuel, is one RunAgents followed
   * by one update, and the loop goes on from the updated world.
   */
  lemma RunLoopStep(w: World, fuel: nat, select: (World, nat) -> nat,
                    doAction: (World, nat, nat) -> Option<(World, int)>, update: World -> World)
    requires KeepsAgents(doAction) && !w.runOver && fuel > 0
    ensures var round := RunAgents(w, select, doAction);
            RunLoop(w, fuel, select, doAction, update) ==
              if round.None? then None
              else
                var rest := RunLoop(update(round.value.world), fuel - 1, select, doAction, update);
                if rest.None? then None else Some((rest.value.0, rest.value.1 + 1))
  {
    if RunAgents(w, select, doAction).None? {
      RunLoopFailedRound(w, fuel, select, doAction, update);
    } else {
      RunLoopNextRound(w, fuel, select, doAction, update);
    }
  }

  /** A round that fails makes the run loop fail. */
  lemma RunLoopFailedRound(w: World, fuel: nat, select: (World, nat) -> nat,
                           doAction: (World, nat, nat) -> Option<(World, int)>, update: World -> World)
    requires KeepsAgents(doAction) && !w.runOver && fuel > 0
    requires RunAgents(w, select, doAction).None?
    ensures RunLoop(w, fuel, select, doAction, update).None?
  {
    var body := LoopBody(select, doAction, update);
    assert body(w).None?;
    LoopStep(w, fuel, body);
  }

  /** After a round that succeeds, the run loop goes on from the updated world. */
  lemma RunLoopNextRound(w: World, fuel: nat, select: (World, nat) -> nat,
                         doAction: (World, nat, nat) -> Option<(World, int)>, update: World -> World)
    requires KeepsAgents(doAction) && !w.runOver && fuel > 0
    requires RunAgents(w, select, doAction).Some?
    ensures var next := update(RunAgents(w, select, doAction).value.world);
            var rest := RunLoop(next, fuel - 1, select, doAction, update);
            RunLoop(w, fuel, select, doAction, update) ==
              if rest.None? then None else Some((rest.value.0, rest.value.1 + 1))
  {
    var body := LoopBody(select, doAction, update);
    var next := update(RunAgents(w, select, doAction).value.world);
    assert body(w) == Some(next);
    LoopStep(w, fuel, body);
  }

  /** The world rule never changes the stop flag. */
  ghost predicate RuleKeepsRunOver(doAction: (World, nat, nat) -> Option<(World, int)>)
  {
    forall w: World, i: nat, action: nat :: doAction(w, i, action).Some? ==> doAction(w, i, action).value.0.runOver == w.runOver
  }

  /** Neither hook sets the stop flag. */
  ghost predicate NeverStops(doAction: (World, nat, nat) -> Option<(World, int)>, update: World -> World)
  {
    && RuleKeepsRunOver(doAction)
    && (forall w: World :: update(w).runOver == w.runOver)
  }

  /** TakeTurn leaves the stop flag where the world rule left it. */
  lemma RunAgentsFromKeepsRunOver(w: World, i: nat, select: (World, nat) -> nat,
                                  doAction: (World, nat, nat) -> Option<(World, int)>)
    requires i <= |w.agents| && KeepsAgents(doAction) && RuleKeepsRunOver(doAction)
    ensures var r := RunAgentsFrom(w, i, select, doAction);
            r.Some? ==> r.value.world.runOver == w.runOver
    decreases |w.agents| - i
  {
    if i < |w.agents| {
      var t := TakeTurn(w, i, select, doAction);
      if t.Some? {
        RunAgentsFromKeepsRunOver(t.value.0, i + 1, select, doAction);
      }
    }
  }

  /** When no hook sets the stop flag, Run performs exactly `fuel` rounds. */
  lemma RunWithoutStopUsesAllFuel(w: World, fuel: nat, select: (World, nat) -> nat,
                                   doAction: (World, nat, nat) -> Option<(World, int)>, update: World -> World)
    requires KeepsAgents(doAction) && NeverStops(doAction, update) && !w.runOver
    ensures var r := RunLoop(w, fuel, select, doAction, update);
            r.Some? ==> r.value.1 == fuel && !r.value.0.runOver
  {
    var body := LoopBody(select, doAction, update);
    forall v: World | !v.runOver && body(v).Some?
      ensures !body(v).value.runOver
    {
      RoundKeepsFlag(v, select, doAction, update);
    }
    LoopWithoutStop(w, fuel, body);
  }

  /** A round and the update after it leave a clear stop flag clear when neither hook sets it. */
  lemma RoundKeepsFlag(w: World, select: (World, nat) -> nat,
                       doAction: (World, nat, nat) -> Option<(World, int)>, update: World -> World)
    requires KeepsAgents(doAction) && NeverStops(doAction, update) && !w.runOver
    ensures var round := RunAgents(w, select, doAction);
            round.Some? ==> !update(round.value.world).runOver
  {
    RunAgentsFromKeepsRunOver(w, 0, select, doAction);
  }

  // ---------------------------------------------------------------------------
  // Perception queries
  // ---------------------------------------------------------------------------

  /** The ids of every agent, in collection order (the default ignores who asks). */
  method GetKnownAgents(w: World, agent: Agent) returns (ids: seq<nat>)
    ensures |ids| == |w.agents|
    ensures forall k :: 0 <= k < |ids| ==> ids[k] == w.agents[k].id
    ensures DenseAgentIds(w) ==> forall k :: 0 <= k < |ids| ==> ids[k] == k
  {
    ids := [];
    for k := 0 to |w.agents|
      invariant |ids| == k
      invariant forall j :: 0 <= j < k ==> ids[j] == w.agents[j].id
    {
      ids := ids + [w.agents[k].id];
    }
  }

  /** The ids of every item, in collection order (the default ignores who asks). */
  method GetKnownItems(w: World, agent: Agent) returns (ids: seq<nat>)
    ensures |ids| == |w.items| == GetNumItems(w)
    ensures forall k :: 0 <= k < |ids| ==> ids[k] == w.items[k].id
  {
    ids := [];
    for k := 0 to |w.items|
      invariant |ids| == k
      invariant forall j :: 0 <= j < k ==> ids[j] == w.items[j].id
    {
      ids := ids + [w.items[k].id];
    }
  }
}

=== FILE: wrappers.dfy ===
/** Small failure-carrying datatype used where the modelled code can abort. */
module Wrappers {

  /**
   * `None` is the absence of a result: a run that stopped at a failed
   * assertion, or a payload too short to read.
   */
  datatype Option<+T> = None | Some(value: T)
}
